=== FILE: README.md ===
# Keyword processor and task wizard: a Dafny model

This project models the four small cores of a keyword-processing web
application: a Flask back end and a React task wizard.

1. **The keyword-phrase filter** behind `/upload`. The uploaded CSV files are
   read in upload order, and every row is tagged with the name of its file.
   The rows are concatenated. Rows without a `Keyword Phrase` are dropped.
   Rows whose phrase contains a negative keyword as a whole word, ignoring
   case, are dropped. Rows that repeat an earlier phrase exactly are dropped.
   The regular expression `\b(k1|k2|...)\b` is modelled as a literal
   alternation between two word boundaries (`KeywordPattern`), with an
   executable leftmost-first `Search` proved equal to it. The pipeline is
   pure functions over `seq<Row>` (`UploadPipeline`).
2. **The server's global state** (`Server`). It holds `negative_keywords`,
   `asin_list` and the one shared `pattern`. `/update-keywords` and
   `/start-cerebro-bot` both check their JSON body the same way
   (`RequestBody.Extract`), including Python's `in` on lists and strings and
   the `TypeError`s that follow. If the body is accepted, the endpoint replaces
   its list. Both endpoints rebuild the same shared `pattern`, so after an ASIN
   request `/upload` filters with the ASINs.
3. **The browser run over the ASINs** (`AsinRun`). The browser is replaced by
   two oracles. One gives the result of navigating to the dashboard. The other
   says whether each browser step succeeds for the ASIN at each position of the
   list. The run makes one attempt per ASIN, in list order, through a fixed
   eleven-step sequence. A failing step abandons only that ASIN. A successful
   ASIN is saved to `"<asin>_export.csv"`.
4. **The wizard's client state**:
   - the five-step stepper, whose active step follows the route (`TaskStepper`);
   - the configuration page's checkbox setter and tag list (`TaskConfig`);
   - the task-wide shallow merge (`TaskContext`).

   React state objects are modelled as maps from property name to value
   (`JsRecord`).

`process_helium10_asins` makes exactly one attempt per ASIN, with no retry,
and only prints when one fails. It returns `True` or `False` and no report of
which ASINs succeeded. The returned boolean is `RunResult.ReturnValue`.
Flask cannot turn a bare `bool` into a response, so as written the HTTP client
of this endpoint gets a server error either way. The model keeps the
function's own return value and leaves that out.

## Model

| member | source | states |
|---|---|---|
| KeywordPattern.Compile | backend/app.py:26 | the compiled alternatives are exactly the keywords; an empty keyword list yields the single empty alternative of `\b()\b` |
| KeywordPattern.Matches | backend/app.py:52 | the `str.contains(pattern)` test on one phrase: some alternative occurs, ignoring case, between two word boundaries; its behaviour is stated by `KeywordPattern.Search`, `KeywordPattern.CompiledMatchIff` and `KeywordPattern.EmptyAlternativeMatchesWords` |
| KeywordPattern.Search | backend/app.py:52 | the search finds a match iff some alternative occurs as a whole word, ignoring case, and the match it reports is the leftmost position with, there, the first matching alternative |
| KeywordPattern.MatchNeedsWordChar | backend/app.py:26 | every match sits at a word boundary, so a phrase with no word character is never filtered out |
| KeywordPattern.EmptyAlternativeMatchesWords | backend/app.py:26 | once the empty alternative is present, a phrase matches iff it contains a word character |
| KeywordPattern.EmptyKeywordListFiltersWords | backend/app.py:114 | an empty keyword list filters out exactly the phrases that contain a word character |
| KeywordPattern.CompiledMatchIff | backend/app.py:52-53 | for a non-empty keyword list, a phrase is filtered out iff some keyword occurs in it, ignoring case, with a word boundary right before and right after |
| KeywordPattern.CaseInsensitive | backend/app.py:26 | case-folding a phrase never changes whether it is filtered out |
| UploadPipeline.ReadTables | backend/app.py:34-42 | reading succeeds iff every upload parses, keeping names and order; otherwise the error names the first unreadable file |
| UploadPipeline.Concat | backend/app.py:36-44 | there is one combined row per uploaded row; where each row comes from is stated by `UploadPipeline.ConcatTags`, and order and completeness by `UploadPipeline.ConcatAt` |
| UploadPipeline.ConcatAt | backend/app.py:34-44 | row `j` of upload `i` is at position (rows of the uploads before `i`) + `j` of the combined frame, tagged with upload `i`'s name: uploads keep their order, rows keep their order within each upload, and every row is present |
| UploadPipeline.ConcatTags | backend/app.py:36-44 | every combined row is a row of some upload, tagged with that upload's file name in `Source File` |
| UploadPipeline.Dedup | backend/app.py:55 | no phrase appears twice, the set of phrases is unchanged, each kept row is the first row with its phrase, and the kept rows come in the order in which their phrases first occur, so of two identical rows the later one is dropped |
| UploadPipeline.FirstIndex | backend/app.py:55 | the position of the first row with a phrase: that row has the phrase and no earlier row does |
| UploadPipeline.DedupFromInOrder | backend/app.py:55 | deduplication with some phrases already taken keeps the rows in the order of their phrases' first occurrence in the input |
| UploadPipeline.FirstWithIsFirst | backend/app.py:55 | the row `drop_duplicates` keeps for a phrase is its first occurrence: every earlier row has a different phrase |
| UploadPipeline.DedupFromIsSubseq | backend/app.py:55 | deduplication only deletes rows and keeps the order of the rest |
| UploadPipeline.DedupIsCaseSensitive | backend/app.py:55 | in any input, for two phrases that differ only in letter case, the first row of each survives deduplication: phrases are compared exactly |
| UploadPipeline.Upload | backend/app.py:27-55 | the `/upload` handler up to the spreadsheet: a successful response has only rows with a phrase the pattern does not match, and no phrase twice; its errors and its result are stated by `UploadPipeline.UploadErrors` and `UploadPipeline.UploadIsCleanCombined` |
| UploadPipeline.UploadErrors | backend/app.py:29-48 | the request fails iff there are no files, some file is unreadable, or no file has a `Keyword Phrase` column; the column error happens iff every file parsed and none has the column; the status is 500 exactly for an unreadable file and 400 otherwise |
| UploadPipeline.UploadIsCleanCombined | backend/app.py:43-55 | a successful upload's spreadsheet is the cleaned concatenation of all uploaded rows |
| UploadPipeline.CleanIsSubseq | backend/app.py:44-55 | the spreadsheet rows are a subsequence of the combined frame, and they come in the order in which their phrases first occur in the combined frame: file order and row order are kept, and so is each row's `Source File` tag |
| UploadPipeline.FilterFirstIndexOrder | backend/app.py:50-53 | dropping rows by a test that keeps every row with phrase `a` or `b` keeps which of the two phrases occurs first |
| UploadPipeline.CleanRowsSurvive | backend/app.py:50-55 | every spreadsheet row has a phrase, the pattern does not match it, and no two rows share a phrase |
| UploadPipeline.CleanIsComplete | backend/app.py:50-55 | every phrase of the combined frame that is present and not matched reaches the spreadsheet |
| UploadPipeline.CleanKeepsFirst | backend/app.py:50-55 | each spreadsheet row is the first row of the combined frame with its phrase |
| UploadPipeline.FirstSurvivorIsFirst | backend/app.py:50-53 | dropping and filtering decide by phrase alone, so a surviving phrase keeps its first row |
| RequestBody.Extract | backend/app.py:100-108 | a body yields a list iff it is an object whose key holds an array of strings; an absent or falsy body is rejected with the missing-key message; `in` or indexing raises on every other truthy non-object whose `in` test does not fail; a rejection carries the wrong-type message exactly when the body is an object holding the key, and the missing-key message otherwise |
| Server.InitialState | backend/app.py:17-26 | the start-up keywords and ASIN, with the pattern built from the keywords |
| Server.GetKeywords | backend/app.py:83-85 | `/get-keywords` reports the current keyword list; how requests change it is stated by `Server.ReadsReflectUpdates` |
| Server.GetAsins | backend/app.py:88-91 | `/get-asins` reports the current ASIN list; how requests change it is stated by `Server.ReadsReflectUpdates` |
| Server.ReadsReflectUpdates | backend/app.py:83-190 | an accepted keyword update shows in `/get-keywords` and leaves `/get-asins` alone; an accepted ASIN request does the reverse; a rejected or raising body changes neither |
| Server.HandleUpload | backend/app.py:27-55 | `/upload` filters with the current shared pattern: every row returned has a phrase that pattern does not match, no phrase twice, and no files gives the no-files error |
| Server.UpdateKeywords | backend/app.py:94-121 | on a well-formed body the keyword list is replaced wholesale and the pattern rebuilt from exactly it, with status 200; the status is 500 exactly when `in` or indexing raises on the body; a 400 carries the wrong-type message exactly when the body is an object holding `keywords`, and the missing-key message otherwise; on any rejection (400) or exception (500) the state is unchanged |
| Server.StartCerebroBot | backend/app.py:171-260 | the ASIN body is checked the same way; on acceptance `asin_list` and the shared `pattern` are replaced before the run, and the run sees the new list; otherwise the state is unchanged; the handler's `except` turns the body check into `False` exactly when `in` or indexing raises on a truthy non-object, and a 400 carries the wrong-type message exactly when the body is an object holding `asins` |
| Server.PatternInvariant | backend/app.py:94-190 | the pattern is always compiled from the keyword list or from the ASIN list, from start-up through any sequence of requests |
| Server.AsinRequestRedirectsUploadFilter | backend/app.py:176-190 | after an accepted ASIN request, `/upload` filters with the ASIN list while `/get-keywords` still reports the old keywords |
| Server.UpdateKeywordsLastWins | backend/app.py:110-114 | a later accepted keyword update decides the state, whatever an earlier request did |
| AsinRun.ExportPath | backend/app.py:245-246 | the export file name is the ASIN followed by `_export.csv` |
| AsinRun.FirstFailure | backend/app.py:209-251 | the steps before the reported index all succeeded, and the step at it failed |
| AsinRun.AttemptAsin | backend/app.py:209-251 | an attempt performs a non-empty prefix of the fixed step order; it succeeds iff every step succeeds, and a failed attempt stops at its first failing step |
| AsinRun.AttemptAll | backend/app.py:208-251 | the loop makes exactly one attempt per ASIN, in list order |
| AsinRun.Run | backend/app.py:194-260 | the run reaches the ASINs iff the dashboard navigation landed on a URL without `signin`; then every ASIN is attempted once, in order, starting from the Cerebro page |
| AsinRun.AuthFailureAttemptsNothing | backend/app.py:197-203 | when authentication fails, or its navigation raises, no ASIN is attempted and the handler returns `False` |
| AsinRun.SavedAreSuccesses | backend/app.py:208-251 | the saved files are the export paths of the successful ASINs in order; these ASINs form a subsequence of the list and are exactly the ASINs with some position whose every step succeeded; how often a repeated ASIN occurs is stated by `AsinRun.SucceededByPosition` |
| AsinRun.SucceededByPosition | backend/app.py:208-251 | the successful ASINs are the reference selection of list positions whose every step succeeds, in order, one entry per position, so a repeated ASIN is saved once for each successful position |
| AsinRun.FailureIsContained | backend/app.py:208-251 | the outcome for one ASIN depends only on its own step outcomes, not on failures of the others |
| TaskStepper.Initial | frontend/src/components/TaskStepper.js:21 | the active step starts at 0 |
| TaskStepper.FindIndex | frontend/src/components/TaskStepper.js:26 | returns -1 iff the path is absent, otherwise the first index holding the path |
| TaskStepper.OnLocation | frontend/src/components/TaskStepper.js:24-30 | a known path selects the step whose path it is; an unknown path leaves the active step unchanged |
| TaskStepper.HandleNext | frontend/src/components/TaskStepper.js:32-36 | `handleNext` navigates iff the active step is not the last, and to the path whose step index is the next one |
| TaskStepper.HandleBack | frontend/src/components/TaskStepper.js:38-42 | `handleBack` navigates iff the active step is not the first, and to the path whose step index is the previous one |
| TaskStepper.PathsDistinct | frontend/src/components/TaskStepper.js:15-16 | there is one path per step label, and no path appears twice |
| TaskStepper.PathIndexRoundTrip | frontend/src/components/TaskStepper.js:15-28 | the index found for a step's path is that step |
| TaskStepper.ValidPreserved | frontend/src/components/TaskStepper.js:21-42 | the active step stays within 0 and the last step across location changes, Next and Back |
| TaskStepper.NextMovesForward | frontend/src/components/TaskStepper.js:32-74 | Next navigates iff the step is not the last, which is exactly when the button is enabled and labelled "Next"; then it advances by one; at the last step it does nothing and the label is "Finish" |
| TaskStepper.BackMovesBackward | frontend/src/components/TaskStepper.js:38-63 | Back navigates iff the step is not the first, which is exactly when the button is enabled; then it moves back by one, and otherwise it does nothing |
| TaskStepper.NextThenBack | frontend/src/components/TaskStepper.js:32-42 | from any step but the last, Next then Back returns to the same step and its path |
| TaskConfig.InitialConfig | frontend/src/pages/task/TaskConfigPage.js:7-12 | notifications and reminders on, tags `['work']`, an empty tag input, and nothing else |
| TaskConfig.HandleChange | frontend/src/pages/task/TaskConfigPage.js:14-20 | the named property becomes the checked state for a checkbox and the text otherwise; all other properties are unchanged |
| TaskConfig.HandleTagInputChange | frontend/src/pages/task/TaskConfigPage.js:22-27 | only the tag input changes |
| TaskConfig.HandleAddTag | frontend/src/pages/task/TaskConfigPage.js:29-38 | on Enter with a non-blank input, the trimmed input is appended after the existing tags, without deduplication, and the input is cleared; otherwise nothing changes |
| TaskConfig.HandleDeleteTag | frontend/src/pages/task/TaskConfigPage.js:40-45 | the tag no longer occurs, every other tag keeps its count and relative order, and no other property changes |
| TaskConfig.DeleteAbsentIsNoOp | frontend/src/pages/task/TaskConfigPage.js:40-45 | deleting a tag that is not present changes nothing |
| TaskConfig.DeleteIdempotent | frontend/src/pages/task/TaskConfigPage.js:40-45 | deleting twice equals deleting once |
| TaskConfig.AddThenDelete | frontend/src/pages/task/TaskConfigPage.js:29-45 | adding a new tag and then deleting it restores the tag list |
| TaskConfig.TagOperationsKeepCheckboxes | frontend/src/pages/task/TaskConfigPage.js:29-45 | adding and deleting tags leave notifications and reminders unchanged |
| TaskConfig.CheckboxChangeKeepsTagFields | frontend/src/pages/task/TaskConfigPage.js:14-20 | toggling a checkbox keeps the tag list and the tag input as they were |
| Text.TrimSpec | frontend/src/pages/task/TaskConfigPage.js:30 | trimming keeps a contiguous middle part, removes only JavaScript white space, and leaves none at either end |
| Text.TrimIdempotent | frontend/src/pages/task/TaskConfigPage.js:30 | trimming an already trimmed tag changes nothing |
| Text.TrimEmptyIff | frontend/src/pages/task/TaskConfigPage.js:30 | an input trims to empty iff it is all white space |
| TaskContext.InitialTaskData | frontend/src/context/TaskContext.js:10-27 | empty title, description, due date and assignee; priority `medium`; notifications and reminders on; no tags; not completed |
| TaskContext.UpdateTaskData | frontend/src/context/TaskContext.js:29-34 | every key of the update holds the update's value, and every other key keeps its previous value |
| TaskContext.EmptyUpdateIsIdentity | frontend/src/context/TaskContext.js:29-34 | an empty update changes nothing |
| TaskContext.UpdateIdempotent | frontend/src/context/TaskContext.js:29-34 | applying the same update twice equals applying it once |
| TaskContext.UpdatesCompose | frontend/src/context/TaskContext.js:29-34 | two successive updates equal one update with their merge, in which the later one wins |

## Left out

- Text.IsWordChar: word characters are ASCII letters, digits and `_`. Python's `\w` on `str` also counts non-ASCII letters and digits. Those characters are treated as non-word here.
- Text.Fold: case-insensitive matching folds ASCII letters only. Python's `re.IGNORECASE` also folds non-ASCII letters and a few special pairs, such as the Kelvin sign and `k`.
- RequestBody.Extract: JSON numbers are integers; a float's truthiness is not modelled. A body that `request.get_json()` itself rejects, for example because of a wrong content type, is not modelled either.
- UploadPipeline.Upload: phrases are strings. pandas type inference is not modelled. A `Keyword Phrase` column of numbers only would make `.str.contains` raise, giving a 500. So would a column that holds no string at all, for example when every phrase cell is empty and pandas reads the column as float NaN; the model instead returns an empty spreadsheet.
- Writing the spreadsheet and sending it (backend/app.py:56-69), with their 500 responses, are file I/O.
- CSV parsing is file I/O. Each upload is given as already parsed rows, or as unreadable.
- Other CSV columns are an opaque payload of cells. pandas fills columns missing from a file with NaN; only the `Keyword Phrase` case of this matters to the filter and is modelled.
- Server.StartCerebroBot: assumes the browser launches. `sync_playwright()`, `chromium.launch`, `new_context` and `new_page` (backend/app.py:129-169) run outside any `try` and before the body is read. If one of them raises, Flask answers 500 and `asin_list` and `pattern` stay unchanged, even for a well-formed body. The model has no such outcome: a well-formed body always replaces the state.
- The browser is not modelled: loading cookies from the environment (backend/app.py:157-166, whose errors are caught and printed), selectors, timeouts and the download itself. After the launch, they are replaced by the `AuthCheck` value and the step oracle.
- Flask turns the `True`/`False` returned by `/start-cerebro-bot` into a server error. HTTP status handling is not part of this model.
- Routing, CORS, static and 404 fallback serving, `direct_html`, and the task CRUD stubs (backend/app.py:70-80, 263-362) are HTTP plumbing that returns canned data.
- Concurrent requests racing on the global state are not modelled. Each request is one atomic state transition.
- Render-only React components are not modelled: HelpPage, AboutPage, Navigation, App, KeywordProcessorApp and TaskReviewPage. TaskSubmitPage, an asynchronous `setTimeout` simulation, is not modelled either.
- TaskDetailsPage is a one-field setter over `updateTaskData`, which `TaskContext.UpdateTaskData` covers.
- TaskSetupPage keeps its own local state: its setter spreads `{[name]: value}` over the previous local record, the same shape as `JsRecord.Spread` and as `TaskConfig.HandleChange` on a non-checkbox input. It never calls `updateTaskData`, so its priority, due date and assignee are not shared through `TaskContext`. It is not modelled separately.
- React's asynchronous, batched state updates are modelled as immediate. `handleAddTag` tests the rendered `configData` but appends to `prev`. The model treats the two as the same state, which holds when no other update is pending. `e.preventDefault()` is not modelled.
- Each task page renders its own `TaskStepper`, so a page change remounts it with `activeStep` 0 before the location effect runs. The model keeps one stepper state across navigations. Both agree for the five step paths. They differ for a pathname that a route matches but that is not one of the step paths, such as one with a trailing slash or different letter case: the page shows step 0, whereas `TaskStepper.OnLocation` keeps the previous step.
- TaskStepper.HandleNext: requires the active step to be a valid index. This always holds, as `TaskStepper.ValidPreserved` shows. TaskStepper.HandleBack has the same requirement.

=== FILE: asinrun.dfy ===
/** The browser-driven run of the `/start-cerebro-bot` request
    (backend/app.py:194-260), with the browser replaced by oracles: what the
    dashboard navigation led to, and whether each browser step of each ASIN
    succeeds. The run makes one attempt per ASIN, in list order, and a failing
    step abandons only that ASIN. */
module AsinRun {
  import opened Common
  import opened Seqs
  import opened Text

  /** The outcome of navigating to the dashboard: the page's final URL, or an
      exception from the navigation itself. */
  datatype AuthCheck = Landed(url: string) | NavigationFailed

  /** The browser steps of one ASIN, backend/app.py:214-246. */
  datatype BrowserStep =
    | GotoCerebro           // goto the Cerebro page, waiting for network idle
    | WaitForInput          // wait for the ASIN input field
    | FillAsin              // type the ASIN into it
    | PressEnter
    | WaitForGetKeywords    // wait for the 'Get Keywords' button
    | ClickGetKeywords
    | WaitForExport         // wait up to 60 s for results ('Export Data')
    | ClickExport
    | WaitForCsvOption
    | ClickCsvAndDownload   // click 'CSV' while expecting a download
    | SaveDownload          // save it as "<asin>_export.csv"

  /** The fixed order in which every attempt performs the steps. */
  const StepOrder: seq<BrowserStep> := [
    GotoCerebro, WaitForInput, FillAsin, PressEnter, WaitForGetKeywords,
    ClickGetKeywords, WaitForExport, ClickExport, WaitForCsvOption,
    ClickCsvAndDownload, SaveDownload
  ]

  /** Whether step `s` succeeds on the ASIN at position `i` of the list. */
  type StepOracle = (nat, BrowserStep) -> bool

  /** What happened to one ASIN: the steps performed, in order, and the step
      that raised if one did. */
  datatype Attempt = Attempt(asin: string, performed: seq<BrowserStep>, failedAt: Option<BrowserStep>) {
    predicate Succeeded() { failedAt.None? }
  }

  /** What `process_helium10_asins` returns after the request was accepted:
      `False` when the dashboard redirected to sign-in or its navigation
      raised, `True` after the loop over all ASINs. */
  datatype RunResult = AuthFailed | Aborted | Completed(attempts: seq<Attempt>) {
    function ReturnValue(): bool { Completed? }
  }

  /** The file a successful ASIN's export is saved to. */
  function ExportPath(asin: string): (path: string)
    ensures |path| == |asin| + |"_export.csv"|
    ensures path[..|asin|] == asin && path[|asin|..] == "_export.csv"
  {
    asin + "_export.csv"
  }

  /** The index of the first step in `steps` that fails for ASIN `i`, or `|steps|`. */
  function FirstFailure(i: nat, steps: seq<BrowserStep>, ok: StepOracle): (n: nat)
    ensures n <= |steps|
    ensures forall k :: 0 <= k < n ==> ok(i, steps[k])
    ensures n < |steps| ==> !ok(i, steps[n])
  {
    if steps == [] then 0
    else if !ok(i, steps[0]) then 0
    else 1 + FirstFailure(i, steps[1..], ok)
  }

  /** One iteration of the loop: the steps in order up to and including the
      first that fails; the exception is caught and the loop moves on. */
  function AttemptAsin(i: nat, asin: string, ok: StepOracle): (a: Attempt)
    ensures a.asin == asin
    ensures 0 < |a.performed| <= |StepOrder| && a.performed == StepOrder[..|a.performed|]
    ensures a.Succeeded() <==> forall k :: 0 <= k < |StepOrder| ==> ok(i, StepOrder[k])
    ensures a.Succeeded() ==> a.performed == StepOrder
    ensures !a.Succeeded() ==>
              && a.failedAt == Some(a.performed[|a.performed| - 1])
              && !ok(i, a.performed[|a.performed| - 1])
              && forall k :: 0 <= k < |a.performed| - 1 ==> ok(i, a.performed[k])
  {
    var n := FirstFailure(i, StepOrder, ok);
    if n == |StepOrder| then Attempt(asin, StepOrder, None)
    else Attempt(asin, StepOrder[..n + 1], Some(StepOrder[n]))
  }

  /** The loop of backend/app.py:208-251 from position `from` on. */
  function AttemptAll(asins: seq<string>, from: nat, ok: StepOracle): (r: seq<Attempt>)
    requires from <= |asins|
    ensures |r| == |asins| - from
    ensures forall k :: 0 <= k < |r| ==> r[k] == AttemptAsin(from + k, asins[from + k], ok)
    decreases |asins| - from
  {
    if from == |asins| then []
    else
      var rest := AttemptAll(asins, from + 1, ok);
      var r := [AttemptAsin(from, asins[from], ok)] + rest;
      assert forall k :: 1 <= k < |r| ==> r[k] == rest[k - 1];
      r
  }

  /** The run after the ASIN list has been stored (backend/app.py:194-260). */
  function Run(asins: seq<string>, auth: AuthCheck, ok: StepOracle): (r: RunResult)
    ensures r.Completed? <==> auth.Landed? && !ContainsSub(auth.url, "signin")
    ensures r.Completed? ==> |r.attempts| == |asins|
    ensures r.Completed? ==> forall k :: 0 <= k < |asins| ==>
              && r.attempts[k] == AttemptAsin(k, asins[k], ok)
              && r.attempts[k].asin == asins[k]
              && r.attempts[k].performed[0] == GotoCerebro
  {
    match auth
    case NavigationFailed => Aborted
    case Landed(url) =>
      if ContainsSub(url, "signin") then AuthFailed
      else Completed(AttemptAll(asins, 0, ok))
  }

  /** The ASINs whose export was saved, in list order. */
  function SucceededAsins(attempts: seq<Attempt>): seq<string> {
    if attempts == [] then []
    else (if attempts[0].Succeeded() then [attempts[0].asin] else []) + SucceededAsins(attempts[1..])
  }

  /** The files the run writes, in the order it writes them. */
  function SavedFiles(attempts: seq<Attempt>): seq<string> {
    if attempts == [] then []
    else (if attempts[0].Succeeded() then [ExportPath(attempts[0].asin)] else []) + SavedFiles(attempts[1..])
  }

  /** When authentication fails no ASIN is attempted and nothing is saved. */
  lemma AuthFailureAttemptsNothing(asins: seq<string>, auth: AuthCheck, ok: StepOracle)
    requires auth.NavigationFailed? || ContainsSub(auth.url, "signin")
    ensures !Run(asins, auth, ok).Completed?
    ensures !Run(asins, auth, ok).ReturnValue()
  {
  }

  /** Every browser step succeeds for the ASIN at position `k`. */
  predicate AllStepsSucceed(k: nat, ok: StepOracle) {
    forall s :: 0 <= s < |StepOrder| ==> ok(k, StepOrder[s])
  }

  /** Reference selection by position: the ASINs from position `from` on
      whose every step succeeds, in list order, each once per position. */
  function SuccessfulFrom(asins: seq<string>, from: nat, ok: StepOracle): seq<string>
    requires from <= |asins|
    decreases |asins| - from
  {
    if from == |asins| then []
    else (if AllStepsSucceed(from, ok) then [asins[from]] else []) + SuccessfulFrom(asins, from + 1, ok)
  }

  /** The successful attempts are exactly the reference selection by position. */
  lemma {:induction false} SucceededByPosition(asins: seq<string>, from: nat, ok: StepOracle)
    requires from <= |asins|
    ensures SucceededAsins(AttemptAll(asins, from, ok)) == SuccessfulFrom(asins, from, ok)
    decreases |asins| - from
  {
    if from < |asins| {
      var a := AttemptAsin(from, asins[from], ok);
      var tail := AttemptAll(asins, from + 1, ok);
      SucceededByPosition(asins, from + 1, ok);
      AttemptAllHead(asins, from, ok);
      AttemptOutcome(from, asins[from], ok);
      var head := if a.Succeeded() then [a.asin] else [];
      assert ([a] + tail)[1..] == tail;
      assert SucceededAsins([a] + tail) == head + SucceededAsins(tail);
    }
  }

  lemma AttemptAllHead(asins: seq<string>, from: nat, ok: StepOracle)
    requires from < |asins|
    ensures AttemptAll(asins, from, ok) == [AttemptAsin(from, asins[from], ok)] + AttemptAll(asins, from + 1, ok)
  {
  }

  lemma AttemptOutcome(i: nat, asin: string, ok: StepOracle)
    ensures AttemptAsin(i, asin, ok).asin == asin
    ensures AttemptAsin(i, asin, ok).Succeeded() <==> AllStepsSucceed(i, ok)
  {
  }

  /** The saved files are exactly the export paths of the successful ASINs,
      and those are an ordered selection from the ASIN list
      (`SucceededByPosition` pins down how often a repeated ASIN occurs). */
  lemma {:induction false} SavedAreSuccesses(asins: seq<string>, from: nat, ok: StepOracle)
    requires from <= |asins|
    ensures SavedFiles(AttemptAll(asins, from, ok)) == MapExportPath(SucceededAsins(AttemptAll(asins, from, ok)))
    ensures IsSubseq(SucceededAsins(AttemptAll(asins, from, ok)), asins[from..])
    ensures forall a :: a in SucceededAsins(AttemptAll(asins, from, ok)) <==>
              exists k :: from <= k < |asins| && asins[k] == a
                && forall s :: 0 <= s < |StepOrder| ==> ok(k, StepOrder[s])
    decreases |asins| - from
  {
    var r := AttemptAll(asins, from, ok);
    if from < |asins| {
      SavedAreSuccesses(asins, from + 1, ok);
      assert r[1..] == AttemptAll(asins, from + 1, ok);
      assert asins[from..][1..] == asins[from + 1..];
      var rest := SucceededAsins(r[1..]);
      if r[0].Succeeded() {
        assert SucceededAsins(r) == [asins[from]] + rest;
        assert SucceededAsins(r)[1..] == rest;
      } else {
        assert SucceededAsins(r) == rest;
        SubseqSkip(rest, asins[from..]);
      }
      forall a
        ensures a in SucceededAsins(r) <==> exists k :: (from <= k < |asins| && asins[k] == a
                  && forall s :: 0 <= s < |StepOrder| ==> ok(k, StepOrder[s]))
      {
        if a in SucceededAsins(r) && !(a in rest) {
          assert a == asins[from];
        }
        if exists k :: from <= k < |asins| && asins[k] == a && forall s :: 0 <= s < |StepOrder| ==> ok(k, StepOrder[s]) {
          var k :| from <= k < |asins| && asins[k] == a && forall s :: 0 <= s < |StepOrder| ==> ok(k, StepOrder[s]);
          if k == from {
            assert r[0].Succeeded();
          }
        }
      }
    }
  }

  function MapExportPath(asins: seq<string>): (r: seq<string>)
    ensures |r| == |asins|
    ensures forall k :: 0 <= k < |asins| ==> r[k] == ExportPath(asins[k])
  {
    if asins == [] then [] else [ExportPath(asins[0])] + MapExportPath(asins[1..])
  }

  /** A failure is contained: what happens to the ASIN at position `k` depends
      only on that ASIN's own step outcomes, whatever the other ASINs do. */
  lemma FailureIsContained(asins: seq<string>, ok1: StepOracle, ok2: StepOracle, k: nat)
    requires k < |asins|
    requires forall s :: ok1(k, s) == ok2(k, s)
    ensures AttemptAll(asins, 0, ok1)[k] == AttemptAll(asins, 0, ok2)[k]
  {
    assert FirstFailure(k, StepOrder, ok1) == FirstFailure(k, StepOrder, ok2) by {
      SameOutcomesSameFailure(k, StepOrder, ok1, ok2);
    }
  }

  lemma {:induction false} SameOutcomesSameFailure(i: nat, steps: seq<BrowserStep>, ok1: StepOracle, ok2: StepOracle)
    requires forall s :: ok1(i, s) == ok2(i, s)
    ensures FirstFailure(i, steps, ok1) == FirstFailure(i, steps, ok2)
    decreases |steps|
  {
    if steps != [] {
      SameOutcomesSameFailure(i, steps[1..], ok1, ok2);
    }
  }
}

=== FILE: common.dfy ===
/** Failure-carrying wrappers shared by every module of the model. */
module Common {

  /** A value that may be absent: a missing CSV cell, an absent request body. */
  datatype Option<+T> = None | Some(value: T)

  /** The outcome of an operation that either produces a value or reports an error. */
  datatype Result<+T, +E> = Ok(value: T) | Err(error: E)
}

=== FILE: json.dfy ===
/** The JSON request body as the Flask handlers see it, and the check both
    list-replacing endpoints apply to it (backend/app.py:100-108 and 175-184). */
module RequestBody {
  import opened Common
  import opened Text

  /** A decoded JSON value. Numbers are kept as integers only. */
  datatype Json =
    | Null
    | Bool(b: bool)
    | Num(n: int)
    | Str(s: string)
    | Arr(items: seq<Json>)
    | Obj(fields: map<string, Json>)

  /** Python truthiness of the decoded value (`not data`). */
  predicate Truthy(v: Json) {
    match v
    case Null => false
    case Bool(b) => b
    case Num(n) => n != 0
    case Str(s) => s != []
    case Arr(items) => items != []
    case Obj(fields) => fields != map[]
  }

  /** Which list a request carries; fixes the key and the two 400 messages. */
  datatype ListKind = Keywords | Asins {
    function Key(): string {
      match this
      case Keywords => "keywords"
      case Asins => "asins"
    }
    function MissingMessage(): string {
      match this
      case Keywords => "No keywords provided in the request"
      case Asins => "No asins provided in the request"
    }
    function TypeMessage(): string {
      match this
      case Keywords => "Keywords must be a list of strings"
      case Asins => "Asins must be a list of strings"
    }
  }

  /** What the check makes of a body: the list of strings it carries, a
      rejection answered with 400 and a message, or a Python exception
      (a `TypeError` from `in` or from indexing) that the handler's own
      `except` clause catches. */
  datatype Extracted = Strings(values: seq<string>) | Rejected(message: string) | Raised

  /** Python's `key in data` for each kind of decoded value; `None` for the
      kinds where `in` raises `TypeError` (numbers and `true`). */
  function HasKey(data: Json, key: string): Option<bool>
    requires Truthy(data)
  {
    match data
    case Obj(fields) => Some(key in fields)
    case Arr(items) => Some(Str(key) in items)
    case Str(s) => Some(ContainsSub(s, key))
    case _ => None
  }

  predicate AllStrings(items: seq<Json>) {
    forall k :: 0 <= k < |items| ==> items[k].Str?
  }

  /** The strings of a JSON array whose items are all strings, in order. */
  function StringsOf(items: seq<Json>): (r: seq<string>)
    requires AllStrings(items)
    ensures |r| == |items|
    ensures forall k :: 0 <= k < |items| ==> items[k] == Str(r[k])
  {
    if items == [] then [] else [items[0].s] + StringsOf(items[1..])
  }

  /** The body is a JSON object whose `key` holds an array of strings: the only
      shape both endpoints accept. */
  predicate WellFormed(data: Option<Json>, key: string) {
    && data.Some? && data.value.Obj? && key in data.value.fields
    && data.value.fields[key].Arr? && AllStrings(data.value.fields[key].items)
  }

  /** The validation at backend/app.py:101-108 (and its copy at 176-184):
      `not data or key not in data` rejects, `data[key]` must be a list of
      strings; `in` and indexing on other value kinds raise. */
  function Extract(data: Option<Json>, kind: ListKind): (r: Extracted)
    ensures r.Strings? <==> WellFormed(data, kind.Key())
    ensures r.Strings? ==>
      var items := data.value.fields[kind.Key()].items;
      |r.values| == |items| && forall k :: 0 <= k < |items| ==> items[k] == Str(r.values[k])
    ensures (data.None? || !Truthy(data.value)) ==> r == Rejected(kind.MissingMessage())
    ensures r.Raised? <==> data.Some? && Truthy(data.value) && !data.value.Obj?
                           && HasKey(data.value, kind.Key()) != Some(false)
    ensures r.Rejected? ==> r.message in {kind.MissingMessage(), kind.TypeMessage()}
    ensures r.Rejected? ==>
              (r.message == kind.TypeMessage() <==> data.Some? && data.value.Obj? && kind.Key() in data.value.fields)
  {
    if data.None? || !Truthy(data.value) then Rejected(kind.MissingMessage())
    else
      match HasKey(data.value, kind.Key())
      case None => Raised
      case Some(false) => Rejected(kind.MissingMessage())
      case Some(true) =>
        if !data.value.Obj? then Raised
        else
          var v := data.value.fields[kind.Key()];
          if v.Arr? && AllStrings(v.items) then Strings(StringsOf(v.items))
          else Rejected(kind.TypeMessage())
  }
}

=== FILE: pattern.dfy ===
/** The negative-keyword regular expression `\b(k1|k2|...)\b` compiled with
    `re.IGNORECASE` from escaped keywords (backend/app.py:26, 114, 190), and the
    `search` that `str.contains` performs with it (backend/app.py:52). Escaping
    makes every alternative a literal, so only literal alternation between two
    word boundaries is modelled. */
module KeywordPattern {
  import opened Text

  /** A compiled pattern: the literal alternatives between the two `\b`. */
  datatype Pattern = Pattern(alternatives: seq<string>)

  /** `'|'.join(map(re.escape, keywords))` inside `\b(...)\b`: an empty list
      joins to the empty string, which is the single empty alternative `\b()\b`. */
  function Compile(keywords: seq<string>): (p: Pattern)
    ensures p.alternatives != []
    ensures forall k :: 0 <= k < |keywords| ==> keywords[k] in p.alternatives
    ensures forall a :: 0 <= a < |p.alternatives| ==>
              p.alternatives[a] in keywords || (p.alternatives[a] == "" && keywords == [])
  {
    Pattern(if keywords == [] then [""] else keywords)
  }

  /** Index `i` of `s` holds a word character (outside the string there is none). */
  predicate WordAt(s: string, i: int) {
    0 <= i < |s| && IsWordChar(s[i])
  }

  /** `\b` at position `i`: word and non-word characters meet there. */
  predicate BoundaryAt(s: string, i: int) {
    WordAt(s, i - 1) != WordAt(s, i)
  }

  /** `k` occurs at position `i` of `s`, ignoring case. */
  predicate FoldEqAt(s: string, k: string, i: int)
    requires 0 <= i && i + |k| <= |s|
  {
    forall j :: 0 <= j < |k| ==> Fold(s[i + j]) == Fold(k[j])
  }

  /** The regular expression `\b` k `\b` matches `s` at position `i`. */
  predicate WholeWordAt(s: string, k: string, i: int) {
    && 0 <= i && i + |k| <= |s|
    && BoundaryAt(s, i)
    && FoldEqAt(s, k, i)
    && BoundaryAt(s, i + |k|)
  }

  /** `pattern.search(s)` finds a match: some alternative occurs as a whole
      word somewhere (backtracking tries every alternative at every position). */
  predicate Matches(s: string, p: Pattern) {
    exists a, i | 0 <= a < |p.alternatives| && 0 <= i <= |s| :: WholeWordAt(s, p.alternatives[a], i)
  }

  /** `s` contains at least one word character. */
  predicate HasWordChar(s: string) {
    exists i | 0 <= i < |s| :: IsWordChar(s[i])
  }

  /** The position and alternative that a regex engine reports: the leftmost
      position with a match and, there, the first alternative that matches. */
  predicate FirstMatch(s: string, p: Pattern, at: int, alt: int) {
    && 0 <= alt < |p.alternatives| && 0 <= at <= |s|
    && WholeWordAt(s, p.alternatives[alt], at)
    && (forall i, a :: 0 <= i < at && 0 <= a < |p.alternatives| ==> !WholeWordAt(s, p.alternatives[a], i))
    && (forall a :: 0 <= a < alt ==> !WholeWordAt(s, p.alternatives[a], at))
  }

  /** Case-insensitive comparison of `k` with `s` at position `i`, character by character. */
  method FoldEqualAt(s: string, k: string, i: nat) returns (eq: bool)
    requires i + |k| <= |s|
    ensures eq <==> FoldEqAt(s, k, i)
  {
    var j := 0;
    while j < |k|
      invariant 0 <= j <= |k|
      invariant forall m :: 0 <= m < j ==> Fold(s[i + m]) == Fold(k[m])
    {
      if Fold(s[i + j]) != Fold(k[j]) {
        return false;
      }
      j := j + 1;
    }
    return true;
  }

  /** A leftmost-first search in the manner of a backtracking regex engine:
      try every position from the left and, at each, every alternative in order. */
  method Search(s: string, p: Pattern) returns (found: bool, at: nat, alt: nat)
    ensures found <==> Matches(s, p)
    ensures found ==> FirstMatch(s, p, at, alt)
  {
    var alts := p.alternatives;
    at := 0;
    while at <= |s|
      invariant 0 <= at <= |s| + 1
      invariant forall i, a :: 0 <= i < at && 0 <= a < |alts| ==> !WholeWordAt(s, alts[a], i)
    {
      alt := 0;
      while alt < |alts|
        invariant 0 <= alt <= |alts|
        invariant forall a :: 0 <= a < alt ==> !WholeWordAt(s, alts[a], at)
      {
        var k := alts[alt];
        if at + |k| <= |s| && BoundaryAt(s, at) && BoundaryAt(s, at + |k|) {
          var eq := FoldEqualAt(s, k, at);
          if eq {
            assert WholeWordAt(s, alts[alt], at);
            return true, at, alt;
          }
        }
        alt := alt + 1;
      }
      at := at + 1;
    }
    return false, 0, 0;
  }

  /** Every match needs a word boundary, and a boundary needs a word character
      on one side: a phrase without word characters is never filtered out. */
  lemma MatchNeedsWordChar(s: string, p: Pattern)
    requires Matches(s, p)
    ensures HasWordChar(s)
  {
    var a, i :| 0 <= a < |p.alternatives| && 0 <= i <= |s| && WholeWordAt(s, p.alternatives[a], i);
    if WordAt(s, i - 1) {
      assert IsWordChar(s[i - 1]);
    } else {
      assert IsWordChar(s[i]);
    }
  }

  /** The first word character of a string sits at a word boundary. */
  lemma {:induction false} FirstWordCharIsBoundary(s: string, n: nat)
    requires n <= |s|
    requires forall i :: 0 <= i < n ==> !IsWordChar(s[i])
    requires HasWordChar(s)
    ensures exists i :: 0 <= i < |s| && IsWordChar(s[i]) && BoundaryAt(s, i)
    decreases |s| - n
  {
    if n == |s| {
      assert false;
    } else if IsWordChar(s[n]) {
      assert BoundaryAt(s, n);
    } else {
      FirstWordCharIsBoundary(s, n + 1);
    }
  }

  /** The empty alternative matches at every word boundary: once it is among
      the alternatives, exactly the phrases with a word character match. */
  lemma EmptyAlternativeMatchesWords(s: string, p: Pattern)
    requires "" in p.alternatives
    ensures Matches(s, p) <==> HasWordChar(s)
  {
    if HasWordChar(s) {
      FirstWordCharIsBoundary(s, 0);
      var i :| 0 <= i < |s| && IsWordChar(s[i]) && BoundaryAt(s, i);
      var a :| 0 <= a < |p.alternatives| && p.alternatives[a] == "";
      assert WholeWordAt(s, p.alternatives[a], i);
    }
    if Matches(s, p) {
      MatchNeedsWordChar(s, p);
    }
  }

  /** An empty keyword list compiles to `\b()\b`, which filters out every
      phrase that contains a word character and no other. */
  lemma EmptyKeywordListFiltersWords(s: string)
    ensures Matches(s, Compile([])) <==> HasWordChar(s)
  {
    EmptyAlternativeMatchesWords(s, Compile([]));
  }

  /** For a non-empty keyword list, a phrase is filtered out exactly when one of
      the keywords occurs in it as a whole word, ignoring case. */
  lemma CompiledMatchIff(s: string, keywords: seq<string>)
    requires keywords != []
    ensures Matches(s, Compile(keywords)) <==>
            exists k, i | k in keywords && 0 <= i <= |s| :: WholeWordAt(s, k, i)
  {
    var alts := Compile(keywords).alternatives;
    if Matches(s, Compile(keywords)) {
      var a, i :| 0 <= a < |alts| && 0 <= i <= |s| && WholeWordAt(s, alts[a], i);
      assert alts[a] in keywords;
    }
    if exists k, i | k in keywords && 0 <= i <= |s| :: WholeWordAt(s, k, i) {
      var k, i :| k in keywords && 0 <= i <= |s| && WholeWordAt(s, k, i);
      var a :| 0 <= a < |keywords| && keywords[a] == k;
      assert WholeWordAt(s, alts[a], i);
    }
  }

  /** Folding the case of a phrase never changes whether it is filtered out. */
  lemma CaseInsensitive(s: string, p: Pattern)
    ensures Matches(FoldAll(s), p) <==> Matches(s, p)
  {
    var f := FoldAll(s);
    forall k, i | 0 <= i && i + |k| <= |s|
      ensures WholeWordAt(f, k, i) <==> WholeWordAt(s, k, i)
    {
      assert WordAt(f, i - 1) == WordAt(s, i - 1);
      assert WordAt(f, i) == WordAt(s, i);
      assert WordAt(f, i + |k| - 1) == WordAt(s, i + |k| - 1);
      assert WordAt(f, i + |k|) == WordAt(s, i + |k|);
      assert FoldEqAt(f, k, i) <==> FoldEqAt(s, k, i) by {
        forall c: char ensures Fold(Fold(c)) == Fold(c) {
          FoldIdempotent(c);
        }
      }
    }
  }

  /** Every character of `s` case-folded. */
  function FoldAll(s: string): (r: string)
    ensures |r| == |s|
    ensures forall j :: 0 <= j < |s| ==> r[j] == Fold(s[j])
  {
    seq(|s|, j requires 0 <= j < |s| => Fold(s[j]))
  }
}

=== FILE: record.dfy ===
/** Plain JavaScript objects as held in React state: a map from property name
    to value, updated by object spread. */
module JsRecord {

  /** The property values the task forms store. */
  datatype Value = Bool(b: bool) | Str(s: string) | StrList(items: seq<string>)

  type Record = map<string, Value>

  /** `{...prev, ...update}`: the update's properties win, all others are kept. */
  function Spread(prev: Record, update: Record): (r: Record)
    ensures r.Keys == prev.Keys + update.Keys
    ensures forall k :: k in update ==> r[k] == update[k]
    ensures forall k :: k in prev && k !in update ==> r[k] == prev[k]
  {
    prev + update
  }
}

=== FILE: seqs.dfy ===
/** Generic sequence facts used by the row pipeline, the ASIN run and the tag list. */
module Seqs {

  /** The elements of `s` for which `keep` holds, in their original order
      (Python's boolean-mask selection, JavaScript's `Array.prototype.filter`). */
  function Filter<T>(s: seq<T>, keep: T -> bool): (r: seq<T>)
    ensures |r| <= |s|
    ensures forall k :: 0 <= k < |r| ==> keep(r[k])
  {
    if s == [] then []
    else (if keep(s[0]) then [s[0]] else []) + Filter(s[1..], keep)
  }

  /** An element survives filtering exactly when it occurs and is kept. */
  lemma {:induction false} FilterMembers<T>(s: seq<T>, keep: T -> bool)
    ensures forall x :: x in Filter(s, keep) <==> x in s && keep(x)
    decreases |s|
  {
    if s != [] {
      FilterMembers(s[1..], keep);
      FilterCons(s[0], s[1..], keep);
      assert s == [s[0]] + s[1..];
    }
  }

  /** `a` can be obtained from `b` by deleting elements: order is kept. */
  predicate IsSubseq<T(==)>(a: seq<T>, b: seq<T>)
    decreases |b|
  {
    if a == [] then true
    else if b == [] then false
    else (a[0] == b[0] && IsSubseq(a[1..], b[1..])) || IsSubseq(a, b[1..])
  }

  lemma {:induction false} SubseqTrans<T>(a: seq<T>, b: seq<T>, c: seq<T>)
    requires IsSubseq(a, b) && IsSubseq(b, c)
    ensures IsSubseq(a, c)
    decreases |c|
  {
    if a != [] {
      assert b != [] && c != [];
      if IsSubseq(b, c[1..]) {
        SubseqTrans(a, b, c[1..]);
      } else {
        assert b[0] == c[0] && IsSubseq(b[1..], c[1..]);
        if a[0] == b[0] && IsSubseq(a[1..], b[1..]) {
          SubseqTrans(a[1..], b[1..], c[1..]);
        } else {
          SubseqTrans(a, b[1..], c[1..]);
        }
      }
    }
  }

  /** Filtering only deletes elements: the survivors keep their relative order. */
  lemma {:induction false} FilterIsSubseq<T>(s: seq<T>, keep: T -> bool)
    ensures IsSubseq(Filter(s, keep), s)
    decreases |s|
  {
    if s != [] {
      FilterIsSubseq(s[1..], keep);
      if keep(s[0]) {
        assert Filter(s, keep) == [s[0]] + Filter(s[1..], keep);
        assert Filter(s, keep)[1..] == Filter(s[1..], keep);
      } else {
        assert Filter(s, keep) == Filter(s[1..], keep);
        SubseqSkip(Filter(s[1..], keep), s);
      }
    }
  }

  /** Dropping the head of the longer sequence keeps a subsequence relation. */
  lemma SubseqSkip<T>(a: seq<T>, b: seq<T>)
    requires b != [] && IsSubseq(a, b[1..])
    ensures IsSubseq(a, b)
  {
  }

  /** Filtering keeps every occurrence of a kept value and none of a dropped one. */
  lemma {:induction false} FilterCount<T>(s: seq<T>, keep: T -> bool, x: T)
    ensures multiset(Filter(s, keep))[x] == if keep(x) then multiset(s)[x] else 0
    decreases |s|
  {
    if s != [] {
      FilterCount(s[1..], keep, x);
      assert s == [s[0]] + s[1..];
      assert multiset(s) == multiset([s[0]]) + multiset(s[1..]);
    }
  }

  /** Filtering with a predicate that holds everywhere on `s` changes nothing. */
  lemma {:induction false} FilterAllKept<T>(s: seq<T>, keep: T -> bool)
    requires forall x :: x in s ==> keep(x)
    ensures Filter(s, keep) == s
    decreases |s|
  {
    if s != [] {
      FilterAllKept(s[1..], keep);
      assert s == [s[0]] + s[1..];
    }
  }

  /** Filtering distributes over concatenation. */
  lemma {:induction false} FilterAppend<T>(a: seq<T>, b: seq<T>, keep: T -> bool)
    ensures Filter(a + b, keep) == Filter(a, keep) + Filter(b, keep)
    decreases |a|
  {
    if a == [] {
      assert a + b == b;
    } else {
      var h := if keep(a[0]) then [a[0]] else [];
      var ra := Filter(a[1..], keep);
      var rb := Filter(b, keep);
      FilterAppend(a[1..], b, keep);
      assert a + b == [a[0]] + (a[1..] + b);
      FilterCons(a[0], a[1..] + b, keep);
      FilterCons(a[0], a[1..], keep);
      assert a == [a[0]] + a[1..];
      assert h + (ra + rb) == (h + ra) + rb;
    }
  }

  /** One unfolding of `Filter` on a sequence written as head and tail. */
  lemma FilterCons<T>(x: T, s: seq<T>, keep: T -> bool)
    ensures Filter([x] + s, keep) == (if keep(x) then [x] else []) + Filter(s, keep)
  {
    assert ([x] + s)[0] == x;
    assert ([x] + s)[1..] == s;
  }
}

=== FILE: server.dfy ===
/** The server's process-wide state and the endpoints that read or replace it
    (backend/app.py:17-26, 83-122, 124-192). */
module Server {
  import opened Common
  import opened RequestBody
  import opened KeywordPattern
  import UploadPipeline
  import AsinRun

  /** The globals `negative_keywords`, `asin_list` and `pattern`. */
  datatype ServerState = ServerState(negativeKeywords: seq<string>, asinList: seq<string>, pattern: Pattern)

  const InitialKeywords: seq<string> := ["sunco", "chandelier", "home depot"]
  const InitialAsins: seq<string> := ["B09D1LMDN2"]

  /** The state at start-up (backend/app.py:18-26): the pattern is built from
      the negative keywords. */
  function InitialState(): (st: ServerState)
    ensures st.pattern == Compile(st.negativeKeywords)
    ensures st.negativeKeywords == InitialKeywords && st.asinList == InitialAsins
  {
    ServerState(InitialKeywords, InitialAsins, Compile(InitialKeywords))
  }

  /** The pattern is always the compilation of one of the two lists. */
  predicate PatternFromAList(st: ServerState) {
    st.pattern == Compile(st.negativeKeywords) || st.pattern == Compile(st.asinList)
  }

  /** `/get-keywords` (backend/app.py:83-85). */
  function GetKeywords(st: ServerState): seq<string> {
    st.negativeKeywords
  }

  /** `/get-asins` (backend/app.py:88-91). */
  function GetAsins(st: ServerState): seq<string> {
    st.asinList
  }

  /** `/upload` filters with whatever pattern is current and changes no state. */
  function HandleUpload(st: ServerState, files: seq<UploadPipeline.UploadedFile>)
    : (r: Result<seq<UploadPipeline.Row>, UploadPipeline.UploadError>)
    ensures r.Ok? ==> forall k :: 0 <= k < |r.value| ==>
              r.value[k].phrase.Some? && !Matches(r.value[k].phrase.value, st.pattern)
    ensures r.Ok? ==> UploadPipeline.DistinctPhrases(r.value)
    ensures files == [] ==> r == Err(UploadPipeline.NoFilesProvided)
  {
    UploadPipeline.Upload(files, st.pattern)
  }

  /** The responses of `/update-keywords`. */
  datatype KeywordsResponse =
    | KeywordsUpdated(keywords: seq<string>)   // 200
    | KeywordsRejected(message: string)        // 400
    | KeywordsFailed                           // 500: an exception was caught
  {
    function Status(): int {
      match this
      case KeywordsUpdated(_) => 200
      case KeywordsRejected(_) => 400
      case KeywordsFailed => 500
    }
  }

  /** `/update-keywords` (backend/app.py:94-121): on a valid body the list is
      replaced wholesale and the pattern rebuilt from it; otherwise nothing changes. */
  function UpdateKeywords(st: ServerState, data: Option<Json>): (res: (ServerState, KeywordsResponse))
    ensures res.1.KeywordsUpdated? <==> WellFormed(data, "keywords")
    ensures res.1.KeywordsUpdated? ==>
              && res.0 == st.(negativeKeywords := res.1.keywords, pattern := Compile(res.1.keywords))
              && |res.1.keywords| == |data.value.fields["keywords"].items|
              && forall k :: 0 <= k < |res.1.keywords| ==>
                   data.value.fields["keywords"].items[k] == Str(res.1.keywords[k])
    ensures !res.1.KeywordsUpdated? ==> res.0 == st
    ensures res.1.KeywordsRejected? ==>
              res.1.message in {"No keywords provided in the request", "Keywords must be a list of strings"}
    ensures res.1.KeywordsRejected? ==>
              (res.1.message == "Keywords must be a list of strings" <==>
                 data.Some? && data.value.Obj? && "keywords" in data.value.fields)
    ensures res.1.Status() == 200 <==> WellFormed(data, "keywords")
    ensures res.1.Status() == 500 <==> data.Some? && Truthy(data.value) && !data.value.Obj?
                                       && HasKey(data.value, "keywords") != Some(false)
  {
    match Extract(data, Keywords)
    case Strings(kws) => (st.(negativeKeywords := kws, pattern := Compile(kws)), KeywordsUpdated(kws))
    case Rejected(msg) => (st, KeywordsRejected(msg))
    case Raised => (st, KeywordsFailed)
  }

  /** The responses of `/start-cerebro-bot`: a 400 rejection, the value the
      handler returns (`True`/`False`), or `False` from an exception caught by
      the handler's outer `except`. */
  datatype BotResponse = BotRejected(message: string) | BotReturned(run: AsinRun.RunResult) | BotRaised

  /** `/start-cerebro-bot` (backend/app.py:124-260). The body is checked as in
      `/update-keywords`; once accepted, `asin_list` and the SHARED `pattern`
      are replaced before authentication is even tried. */
  function StartCerebroBot(st: ServerState, data: Option<Json>, auth: AsinRun.AuthCheck, ok: AsinRun.StepOracle)
    : (res: (ServerState, BotResponse))
    ensures res.1.BotReturned? <==> WellFormed(data, "asins")
    ensures res.1.BotReturned? ==>
              && res.0 == st.(asinList := Extract(data, Asins).values, pattern := Compile(Extract(data, Asins).values))
              && res.1.run == AsinRun.Run(res.0.asinList, auth, ok)
    ensures !res.1.BotReturned? ==> res.0 == st
    ensures res.1.BotRejected? ==>
              res.1.message in {"No asins provided in the request", "Asins must be a list of strings"}
    ensures res.1.BotRaised? <==> data.Some? && Truthy(data.value) && !data.value.Obj?
                                  && HasKey(data.value, "asins") != Some(false)
    ensures res.1.BotRejected? ==>
              (res.1.message == "Asins must be a list of strings" <==>
                 data.Some? && data.value.Obj? && "asins" in data.value.fields)
  {
    match Extract(data, Asins)
    case Strings(asins) =>
      var st' := st.(asinList := asins, pattern := Compile(asins));
      (st', BotReturned(AsinRun.Run(asins, auth, ok)))
    case Rejected(msg) => (st, BotRejected(msg))
    case Raised => (st, BotRaised)
  }

  /** What the two read endpoints report after each state-changing request:
      an accepted keyword update shows in `/get-keywords` and leaves
      `/get-asins` alone; an accepted ASIN request does the reverse. */
  lemma ReadsReflectUpdates(st: ServerState, data: Option<Json>, auth: AsinRun.AuthCheck, ok: AsinRun.StepOracle)
    ensures WellFormed(data, "keywords") ==>
              && GetKeywords(UpdateKeywords(st, data).0) == Extract(data, Keywords).values
              && GetAsins(UpdateKeywords(st, data).0) == GetAsins(st)
    ensures WellFormed(data, "asins") ==>
              && GetAsins(StartCerebroBot(st, data, auth, ok).0) == Extract(data, Asins).values
              && GetKeywords(StartCerebroBot(st, data, auth, ok).0) == GetKeywords(st)
    ensures !WellFormed(data, "keywords") ==> GetKeywords(UpdateKeywords(st, data).0) == GetKeywords(st)
    ensures !WellFormed(data, "asins") ==> GetAsins(StartCerebroBot(st, data, auth, ok).0) == GetAsins(st)
  {
  }

  /** Whatever the requests, the pattern is the compilation of the keyword list
      or of the ASIN list: every state-changing endpoint keeps this. */
  lemma PatternInvariant(st: ServerState, data: Option<Json>, auth: AsinRun.AuthCheck, ok: AsinRun.StepOracle)
    requires PatternFromAList(st)
    ensures PatternFromAList(InitialState())
    ensures PatternFromAList(UpdateKeywords(st, data).0)
    ensures PatternFromAList(StartCerebroBot(st, data, auth, ok).0)
  {
  }

  /** After an accepted ASIN request, `/upload` filters with the ASIN list while
      `/get-keywords` still reports the earlier negative keywords, whatever the
      browser run did. */
  lemma AsinRequestRedirectsUploadFilter(st: ServerState, data: Option<Json>, auth: AsinRun.AuthCheck,
                                         ok: AsinRun.StepOracle, files: seq<UploadPipeline.UploadedFile>)
    requires WellFormed(data, "asins")
    ensures var st' := StartCerebroBot(st, data, auth, ok).0;
      && HandleUpload(st', files) == UploadPipeline.Upload(files, Compile(GetAsins(st')))
      && GetKeywords(st') == GetKeywords(st)
  {
  }

  /** A later accepted keyword list replaces whatever the earlier request did. */
  lemma UpdateKeywordsLastWins(st: ServerState, d1: Option<Json>, d2: Option<Json>)
    requires WellFormed(d2, "keywords")
    ensures UpdateKeywords(UpdateKeywords(st, d1).0, d2).0 == UpdateKeywords(st, d2).0
  {
  }
}

=== FILE: stepper.dfy ===
/** The five-step wizard of frontend/src/components/TaskStepper.js: the active
    step follows the route, and Back/Next navigate to a neighbouring step. */
module TaskStepper {
  import opened Common

  const Steps: seq<string> := ["Task Details", "Setup", "Configuration", "Review", "Submit"]
  const StepPaths: seq<string> := ["/task/details", "/task/setup", "/task/config", "/task/review", "/task/submit"]

  /** The component's state, `activeStep`. */
  datatype Stepper = Stepper(activeStep: int)

  predicate Valid(st: Stepper) {
    0 <= st.activeStep < |Steps|
  }

  /** `useState(0)`. */
  function Initial(): (st: Stepper)
    ensures Valid(st) && st.activeStep == 0
  {
    Stepper(0)
  }

  /** `Array.prototype.findIndex` with `path === p`: the first position of `p`, or -1. */
  function FindIndex(paths: seq<string>, p: string): (r: int)
    ensures -1 <= r < |paths|
    ensures r == -1 <==> p !in paths
    ensures r >= 0 ==> paths[r] == p && forall j :: 0 <= j < r ==> paths[j] != p
  {
    if paths == [] then -1
    else if paths[0] == p then 0
    else
      var r := FindIndex(paths[1..], p);
      if r == -1 then -1 else r + 1
  }

  /** The effect run when the location changes: a known path selects its step,
      any other path leaves the active step alone. */
  function OnLocation(st: Stepper, pathname: string): (r: Stepper)
    ensures pathname in StepPaths ==> 0 <= r.activeStep < |StepPaths| && StepPaths[r.activeStep] == pathname
    ensures pathname !in StepPaths ==> r == st
  {
    var i := FindIndex(StepPaths, pathname);
    if i != -1 then Stepper(i) else st
  }

  /** `handleNext`: the path it navigates to, if any. */
  function HandleNext(st: Stepper): (r: Option<string>)
    requires Valid(st)
    ensures r.Some? <==> st.activeStep < |Steps| - 1
    ensures r.Some? ==> FindIndex(StepPaths, r.value) == st.activeStep + 1
  {
    if st.activeStep < |Steps| - 1 then
      PathIndexRoundTrip(st.activeStep + 1);
      Some(StepPaths[st.activeStep + 1])
    else None
  }

  /** `handleBack`: the path it navigates to, if any. */
  function HandleBack(st: Stepper): (r: Option<string>)
    requires Valid(st)
    ensures r.Some? <==> st.activeStep > 0
    ensures r.Some? ==> FindIndex(StepPaths, r.value) == st.activeStep - 1
  {
    if st.activeStep > 0 then
      PathIndexRoundTrip(st.activeStep - 1);
      Some(StepPaths[st.activeStep - 1])
    else None
  }

  /** Navigation re-runs the location effect. */
  function Navigate(st: Stepper, target: Option<string>): Stepper {
    match target
    case Some(p) => OnLocation(st, p)
    case None => st
  }

  function Next(st: Stepper): Stepper requires Valid(st) { Navigate(st, HandleNext(st)) }
  function Back(st: Stepper): Stepper requires Valid(st) { Navigate(st, HandleBack(st)) }

  /** The Back button's `disabled`. */
  predicate BackDisabled(st: Stepper) { st.activeStep == 0 }

  /** The Next button's `disabled`. */
  predicate NextDisabled(st: Stepper) { st.activeStep == |Steps| - 1 }

  /** The Next button's label. */
  function NextLabel(st: Stepper): string {
    if st.activeStep == |Steps| - 1 then "Finish" else "Next"
  }

  /** The step table is well-formed: one path per step, no path twice. */
  lemma PathsDistinct()
    ensures |Steps| == |StepPaths| == 5
    ensures forall i, j :: 0 <= i < j < |StepPaths| ==> StepPaths[i] != StepPaths[j]
  {
  }

  /** Path to index to path round-trips, and index to path to index as well. */
  lemma PathIndexRoundTrip(i: int)
    requires 0 <= i < |StepPaths|
    ensures FindIndex(StepPaths, StepPaths[i]) == i
    ensures OnLocation(Stepper(0), StepPaths[i]).activeStep == i
  {
    PathsDistinct();
    var r := FindIndex(StepPaths, StepPaths[i]);
    assert StepPaths[i] in StepPaths;
    assert StepPaths[r] == StepPaths[i];
  }

  /** The active step stays a valid index whatever locations are visited and
      whichever buttons are pressed. */
  lemma ValidPreserved(st: Stepper, pathname: string)
    requires Valid(st)
    ensures Valid(OnLocation(st, pathname))
    ensures Valid(Next(st))
    ensures Valid(Back(st))
  {
  }

  /** Next moves one step forward exactly when it is not at the last step, and
      the Next button is enabled exactly then. */
  lemma NextMovesForward(st: Stepper)
    requires Valid(st)
    ensures HandleNext(st).Some? <==> !NextDisabled(st)
    ensures !NextDisabled(st) ==> Next(st).activeStep == st.activeStep + 1
    ensures NextDisabled(st) ==> Next(st) == st && NextLabel(st) == "Finish"
    ensures !NextDisabled(st) ==> NextLabel(st) == "Next"
  {
    if !NextDisabled(st) {
      PathIndexRoundTrip(st.activeStep + 1);
    }
  }

  /** Back moves one step back exactly when it is past the first step, and the
      Back button is enabled exactly then. */
  lemma BackMovesBackward(st: Stepper)
    requires Valid(st)
    ensures HandleBack(st).Some? <==> !BackDisabled(st)
    ensures !BackDisabled(st) ==> Back(st).activeStep == st.activeStep - 1
    ensures BackDisabled(st) ==> Back(st) == st
  {
    if !BackDisabled(st) {
      PathIndexRoundTrip(st.activeStep - 1);
    }
  }

  /** From any step before the last, Next then Back returns to that step's path. */
  lemma NextThenBack(st: Stepper)
    requires Valid(st) && !NextDisabled(st)
    ensures Valid(Next(st))
    ensures Back(Next(st)) == st
    ensures HandleBack(Next(st)) == Some(StepPaths[st.activeStep])
  {
    NextMovesForward(st);
    BackMovesBackward(Next(st));
  }
}

=== FILE: taskconfig.dfy ===
/** The configuration step of the wizard (frontend/src/pages/task/TaskConfigPage.js):
    two checkboxes, a tag list, and the text of the tag being typed. */
module TaskConfig {
  import opened Seqs
  import opened Text
  import opened JsRecord

  /** The initial `configData` (TaskConfigPage.js:7-12). */
  function InitialConfig(): (c: Record)
    ensures c.Keys == {"notifications", "reminders", "tags", "tagInput"}
    ensures c["notifications"] == Bool(true) && c["reminders"] == Bool(true)
    ensures c["tags"] == StrList(["work"]) && c["tagInput"] == Str("")
  {
    map["notifications" := Bool(true), "reminders" := Bool(true),
        "tags" := StrList(["work"]), "tagInput" := Str("")]
  }

  /** The shape the tag handlers rely on: a tag list and a string being typed. */
  predicate HasTagFields(c: Record) {
    && "tags" in c && c["tags"].StrList?
    && "tagInput" in c && c["tagInput"].Str?
  }

  function Tags(c: Record): seq<string>
    requires HasTagFields(c)
  {
    c["tags"].items
  }

  function TagInput(c: Record): string
    requires HasTagFields(c)
  {
    c["tagInput"].s
  }

  /** The part of `e.target` that `handleChange` reads. */
  datatype Target = Target(name: string, inputType: string, checked: bool, value: string)

  /** `handleChange` (TaskConfigPage.js:14-20): the named property becomes the
      checkbox state for a checkbox and the text otherwise; nothing else changes. */
  function HandleChange(c: Record, t: Target): (r: Record)
    ensures r.Keys == c.Keys + {t.name}
    ensures t.inputType == "checkbox" ==> r[t.name] == Bool(t.checked)
    ensures t.inputType != "checkbox" ==> r[t.name] == Str(t.value)
    ensures forall k :: k in c && k != t.name ==> r[k] == c[k]
  {
    Spread(c, map[t.name := if t.inputType == "checkbox" then Bool(t.checked) else Str(t.value)])
  }

  /** `handleTagInputChange` (TaskConfigPage.js:22-27). */
  function HandleTagInputChange(c: Record, value: string): (r: Record)
    ensures r.Keys == c.Keys + {"tagInput"}
    ensures r["tagInput"] == Str(value)
    ensures forall k :: k in c && k != "tagInput" ==> r[k] == c[k]
  {
    Spread(c, map["tagInput" := Str(value)])
  }

  /** `handleAddTag` (TaskConfigPage.js:29-38): on Enter with a non-blank input,
      the trimmed input is appended (duplicates allowed) and the input cleared. */
  function HandleAddTag(c: Record, key: string): (r: Record)
    requires HasTagFields(c)
    ensures HasTagFields(r) && r.Keys == c.Keys
    ensures key == "Enter" && Trim(TagInput(c)) != "" ==>
              && Tags(r) == Tags(c) + [Trim(TagInput(c))]
              && TagInput(r) == ""
    ensures !(key == "Enter" && Trim(TagInput(c)) != "") ==> r == c
    ensures forall k :: k in c && k != "tags" && k != "tagInput" ==> r[k] == c[k]
  {
    if key == "Enter" && Trim(TagInput(c)) != "" then
      Spread(c, map["tags" := StrList(Tags(c) + [Trim(TagInput(c))]), "tagInput" := Str("")])
    else c
  }

  /** `handleDeleteTag` (TaskConfigPage.js:40-45): every tag equal to the
      argument is removed and the others keep their order. */
  function HandleDeleteTag(c: Record, tag: string): (r: Record)
    requires HasTagFields(c)
    ensures HasTagFields(r) && r.Keys == c.Keys
    ensures tag !in Tags(r)
    ensures IsSubseq(Tags(r), Tags(c))
    ensures forall x :: x != tag ==> multiset(Tags(r))[x] == multiset(Tags(c))[x]
    ensures forall k :: k in c && k != "tags" ==> r[k] == c[k]
  {
    var kept := Filter(Tags(c), (t: string) => t != tag);
    FilterIsSubseq(Tags(c), (t: string) => t != tag);
    forall x | x != tag
      ensures multiset(kept)[x] == multiset(Tags(c))[x]
    {
      FilterCount(Tags(c), (t: string) => t != tag, x);
    }
    Spread(c, map["tags" := StrList(kept)])
  }

  /** Deleting a tag that is not there changes nothing. */
  lemma DeleteAbsentIsNoOp(c: Record, tag: string)
    requires HasTagFields(c) && tag !in Tags(c)
    ensures HandleDeleteTag(c, tag) == c
  {
    FilterAllKept(Tags(c), (t: string) => t != tag);
    assert HandleDeleteTag(c, tag)["tags"] == c["tags"];
  }

  /** Deleting twice is deleting once. */
  lemma DeleteIdempotent(c: Record, tag: string)
    requires HasTagFields(c)
    ensures HandleDeleteTag(HandleDeleteTag(c, tag), tag) == HandleDeleteTag(c, tag)
  {
    DeleteAbsentIsNoOp(HandleDeleteTag(c, tag), tag);
  }

  /** Adding a new tag and then deleting it restores the tag list. */
  lemma AddThenDelete(c: Record)
    requires HasTagFields(c)
    requires Trim(TagInput(c)) != "" && Trim(TagInput(c)) !in Tags(c)
    ensures Tags(HandleDeleteTag(HandleAddTag(c, "Enter"), Trim(TagInput(c)))) == Tags(c)
  {
    var t := Trim(TagInput(c));
    var added := HandleAddTag(c, "Enter");
    var keep := (x: string) => x != t;
    assert Tags(added) == Tags(c) + [t];
    FilterAllKept(Tags(c), keep);
    FilterAppend(Tags(c), [t], keep);
    assert Filter([t], keep) == [];
  }

  /** Tag operations leave both checkboxes alone. */
  lemma TagOperationsKeepCheckboxes(c: Record, key: string, tag: string)
    requires HasTagFields(c)
    ensures forall k :: k in {"notifications", "reminders"} && k in c ==>
              HandleAddTag(c, key)[k] == c[k] && HandleDeleteTag(c, tag)[k] == c[k]
  {
  }

  /** The checkbox setter keeps the tag fields the tag handlers rely on. */
  lemma CheckboxChangeKeepsTagFields(c: Record, t: Target)
    requires HasTagFields(c) && t.name in {"notifications", "reminders"}
    ensures HasTagFields(HandleChange(c, t))
    ensures Tags(HandleChange(c, t)) == Tags(c) && TagInput(HandleChange(c, t)) == TagInput(c)
  {
  }
}

=== FILE: taskcontext.dfy ===
/** The wizard-wide task record shared through React context
    (frontend/src/context/TaskContext.js). */
module TaskContext {
  import opened JsRecord

  /** The initial `taskData` (TaskContext.js:10-27). */
  function InitialTaskData(): (d: Record)
    ensures d.Keys == {"title", "description", "priority", "dueDate", "assignee",
                       "notifications", "reminders", "tags", "completed"}
    ensures forall k :: k in {"title", "description", "dueDate", "assignee"} ==> d[k] == Str("")
    ensures d["priority"] == Str("medium")
    ensures d["notifications"] == Bool(true) && d["reminders"] == Bool(true)
    ensures d["tags"] == StrList([]) && d["completed"] == Bool(false)
  {
    map["title" := Str(""), "description" := Str(""),
        "priority" := Str("medium"), "dueDate" := Str(""), "assignee" := Str(""),
        "notifications" := Bool(true), "reminders" := Bool(true), "tags" := StrList([]),
        "completed" := Bool(false)]
  }

  /** `updateTaskData` (TaskContext.js:29-34): a shallow merge of the update. */
  function UpdateTaskData(prev: Record, newData: Record): (r: Record)
    ensures r.Keys == prev.Keys + newData.Keys
    ensures forall k :: k in newData ==> r[k] == newData[k]
    ensures forall k :: k in prev && k !in newData ==> r[k] == prev[k]
  {
    Spread(prev, newData)
  }

  /** An empty update changes nothing. */
  lemma EmptyUpdateIsIdentity(prev: Record)
    ensures UpdateTaskData(prev, map[]) == prev
  {
  }

  /** Applying the same update twice is applying it once. */
  lemma UpdateIdempotent(prev: Record, d: Record)
    ensures UpdateTaskData(UpdateTaskData(prev, d), d) == UpdateTaskData(prev, d)
  {
  }

  /** Two updates in a row are one update with their merge, the later winning. */
  lemma UpdatesCompose(prev: Record, d1: Record, d2: Record)
    ensures UpdateTaskData(UpdateTaskData(prev, d1), d2) == UpdateTaskData(prev, UpdateTaskData(d1, d2))
  {
  }
}

=== FILE: text.dfy ===
/** Character classes and string helpers used by the keyword filter, the
    JSON request checks and the tag input. */
module Text {

  /** A regular-expression word character (`\w`), restricted to ASCII:
      letters, digits and the underscore. */
  predicate IsWordChar(c: char) {
    ('a' <= c <= 'z') || ('A' <= c <= 'Z') || ('0' <= c <= '9') || c == '_'
  }

  /** Case folding used by case-insensitive matching, restricted to ASCII. */
  function Fold(c: char): (r: char)
    ensures IsWordChar(r) == IsWordChar(c)
    ensures !('A' <= r <= 'Z')
    ensures ('A' <= c <= 'Z') || r == c
  {
    if 'A' <= c <= 'Z' then (c as int + 32) as char else c
  }

  /** Folding an already folded character changes nothing. */
  lemma FoldIdempotent(c: char)
    ensures Fold(Fold(c)) == Fold(c)
  {
  }

  /** JavaScript white space and line terminators, the characters
      `String.prototype.trim` removes (by code point). */
  const JsSpaceCodes: set<int> := {
    0x09, 0x0A, 0x0B, 0x0C, 0x0D, 0x20, 0xA0, 0x1680,
    0x2000, 0x2001, 0x2002, 0x2003, 0x2004, 0x2005, 0x2006, 0x2007, 0x2008, 0x2009, 0x200A,
    0x2028, 0x2029, 0x202F, 0x205F, 0x3000, 0xFEFF
  }

  predicate IsJsSpace(c: char) {
    c as int in JsSpaceCodes
  }

  /** `s` with its leading JavaScript white space removed. */
  function TrimStart(s: string): (r: string)
    ensures |r| <= |s| && r == s[|s| - |r|..]
    ensures forall k :: 0 <= k < |s| - |r| ==> IsJsSpace(s[k])
    ensures r == [] || !IsJsSpace(r[0])
  {
    if s != [] && IsJsSpace(s[0]) then TrimStart(s[1..]) else s
  }

  /** `s` with its trailing JavaScript white space removed. */
  function TrimEnd(s: string): (r: string)
    ensures |r| <= |s| && r == s[..|r|]
    ensures forall k :: |r| <= k < |s| ==> IsJsSpace(s[k])
    ensures r == [] || !IsJsSpace(r[|r| - 1])
  {
    if s != [] && IsJsSpace(s[|s| - 1]) then TrimEnd(s[..|s| - 1]) else s
  }

  /** JavaScript's `String.prototype.trim`. */
  function Trim(s: string): (r: string)
  {
    TrimEnd(TrimStart(s))
  }

  /** Trim cuts a contiguous middle part out of `s`, removes only white space,
      and leaves no white space at either end of what it keeps. */
  lemma TrimSpec(s: string)
    ensures exists i, j :: 0 <= i <= j <= |s| && Trim(s) == s[i..j] && SpaceOutside(s, i, j)
    ensures Trim(s) == [] || (!IsJsSpace(Trim(s)[0]) && !IsJsSpace(Trim(s)[|Trim(s)| - 1]))
  {
    var t := TrimStart(s);
    var i := |s| - |t|;
    var j := i + |TrimEnd(t)|;
    TrimSlice(s, i, j);
    TrimEnds(s);
  }

  lemma TrimSlice(s: string, i: int, j: int)
    requires i == |s| - |TrimStart(s)| && j == i + |TrimEnd(TrimStart(s))|
    ensures 0 <= i <= j <= |s| && Trim(s) == s[i..j] && SpaceOutside(s, i, j)
  {
    TrimIsSlice(s, i, j);
    TrimDropsOnlySpace(s, i, j);
  }

  lemma TrimIsSlice(s: string, i: int, j: int)
    requires i == |s| - |TrimStart(s)| && j == i + |TrimEnd(TrimStart(s))|
    ensures 0 <= i <= j <= |s| && Trim(s) == s[i..j]
  {
    var t := TrimStart(s);
    var u := TrimEnd(t);
    assert Trim(s) == u;
    assert t == s[i..];
    assert u == t[..j - i];
    PrefixOfSuffix(s, i, j);
  }

  /** A prefix of a suffix is a middle slice. */
  lemma PrefixOfSuffix(s: string, i: int, j: int)
    requires 0 <= i <= j <= |s|
    ensures s[i..][..j - i] == s[i..j]
  {
  }

  lemma TrimDropsOnlySpace(s: string, i: int, j: int)
    requires i == |s| - |TrimStart(s)| && j == i + |TrimEnd(TrimStart(s))|
    ensures 0 <= i <= j <= |s| && SpaceOutside(s, i, j)
  {
    assert TrimStart(s) == s[i..];
    SuffixSpaces(s, i, j - i);
  }

  /** White space at the end of a suffix is white space at the end of the whole. */
  lemma SuffixSpaces(s: string, i: int, n: int)
    requires 0 <= i <= |s| && 0 <= n
    requires forall k :: n <= k < |s| - i ==> IsJsSpace(s[i..][k])
    ensures forall k :: i + n <= k < |s| ==> IsJsSpace(s[k])
  {
    forall k | i + n <= k < |s|
      ensures IsJsSpace(s[k])
    {
      assert s[k] == s[i..][k - i];
    }
  }

  lemma TrimEnds(s: string)
    ensures Trim(s) == [] || (!IsJsSpace(Trim(s)[0]) && !IsJsSpace(Trim(s)[|Trim(s)| - 1]))
  {
    var t := TrimStart(s);
    var u := TrimEnd(t);
    if u != [] {
      assert u[0] == t[0];
    }
  }

  /** Every character of `s` before `i` and from `j` on is white space. */
  predicate SpaceOutside(s: string, i: int, j: int)
    requires 0 <= i <= j <= |s|
  {
    && (forall k :: 0 <= k < i ==> IsJsSpace(s[k]))
    && (forall k :: j <= k < |s| ==> IsJsSpace(s[k]))
  }

  /** Trimming twice is trimming once. */
  lemma TrimIdempotent(s: string)
    ensures Trim(Trim(s)) == Trim(s)
  {
    TrimSpec(s);
  }

  /** Trim yields the empty string exactly when `s` is all white space. */
  lemma TrimEmptyIff(s: string)
    ensures Trim(s) == [] <==> forall k :: 0 <= k < |s| ==> IsJsSpace(s[k])
  {
  }

  /** Python's substring test `t in s`. */
  predicate ContainsSub(s: string, t: string) {
    exists i | 0 <= i <= |s| :: OccursAt(s, t, i)
  }

  /** `t` occurs in `s` starting at index `i`. */
  predicate OccursAt(s: string, t: string, i: int) {
    0 <= i && i + |t| <= |s| && s[i..i + |t|] == t
  }
}

=== FILE: upload.dfy ===
/** The `/upload` pipeline (backend/app.py:27-69): read every uploaded CSV in
    order, tag each row with its file name, concatenate, drop rows without a
    keyword phrase, drop rows whose phrase matches the shared pattern, and drop
    later rows that repeat an earlier phrase. Spreadsheet writing is I/O. */
module UploadPipeline {
  import opened Common
  import opened Seqs
  import opened KeywordPattern

  /** One parsed CSV row: its `Keyword Phrase` cell (absent when pandas reads
      the cell as NaN: empty, or one of its default NA strings such as `NA`,
      `null` or `nan`) and the remaining cells, carried through as an opaque
      payload. */
  datatype CsvRow = CsvRow(phrase: Option<string>, cells: seq<string>)

  /** What `pd.read_csv` makes of an upload: a table, or an exception. */
  datatype Csv = Parsed(hasPhraseColumn: bool, rows: seq<CsvRow>) | Unreadable

  datatype UploadedFile = UploadedFile(filename: string, csv: Csv)

  /** A successfully read upload. */
  datatype Table = Table(filename: string, hasPhraseColumn: bool, rows: seq<CsvRow>)

  /** A row of the combined frame, with its `Source File` column. */
  datatype Row = Row(phrase: Option<string>, sourceFile: string, cells: seq<string>)

  datatype UploadError =
    | NoFilesProvided         // 400: no `files` part in the request
    | FileUnreadable(filename: string)  // 500: `read_csv` raised on this file
    | MissingPhraseColumn     // 400: no upload has a `Keyword Phrase` column
  {
    function Status(): int {
      match this
      case NoFilesProvided => 400
      case FileUnreadable(_) => 500
      case MissingPhraseColumn => 400
    }
  }

  /** The read loop (backend/app.py:34-42): stop at the first unreadable file. */
  function ReadTables(files: seq<UploadedFile>): (r: Result<seq<Table>, UploadError>)
    ensures r.Ok? <==> forall i :: 0 <= i < |files| ==> files[i].csv.Parsed?
    ensures r.Ok? ==> |r.value| == |files| && forall i :: 0 <= i < |files| ==>
              r.value[i] == Table(files[i].filename, files[i].csv.hasPhraseColumn, files[i].csv.rows)
    ensures r.Err? ==> exists i :: (0 <= i < |files| && files[i].csv.Unreadable?
              && r.error == FileUnreadable(files[i].filename)
              && forall j :: 0 <= j < i ==> files[j].csv.Parsed?)
  {
    if files == [] then Ok([])
    else match files[0].csv
      case Unreadable => Err(FileUnreadable(files[0].filename))
      case Parsed(has, rows) =>
        match ReadTables(files[1..])
        case Err(e) => Err(e)
        case Ok(rest) => Ok([Table(files[0].filename, has, rows)] + rest)
  }

  /** A row as it appears in the combined frame: tagged with its file, and
      with no phrase when its file has no `Keyword Phrase` column (pandas fills
      the missing column with NaN on concatenation). */
  function Tag(t: Table, row: CsvRow): Row {
    Row(if t.hasPhraseColumn then row.phrase else None, t.filename, row.cells)
  }

  function TagAll(t: Table): (r: seq<Row>)
    ensures |r| == |t.rows|
    ensures forall j :: 0 <= j < |t.rows| ==> r[j] == Tag(t, t.rows[j])
  {
    seq(|t.rows|, j requires 0 <= j < |t.rows| => Tag(t, t.rows[j]))
  }

  /** `r` is one of the rows of `t`, tagged. */
  predicate FromTable(r: Row, t: Table) {
    exists j :: 0 <= j < |t.rows| && r == Tag(t, t.rows[j])
  }

  /** `pd.concat(dataframes, ignore_index=True)` (backend/app.py:44): one
      combined row per uploaded row. */
  function Concat(tables: seq<Table>): (r: seq<Row>)
    ensures |r| == RowCount(tables)
  {
    if tables == [] then [] else TagAll(tables[0]) + Concat(tables[1..])
  }

  /** Whether the combined frame has a `Keyword Phrase` column. */
  predicate HasPhraseColumn(tables: seq<Table>) {
    exists i :: 0 <= i < |tables| && tables[i].hasPhraseColumn
  }

  /** `dropna(subset=['Keyword Phrase'])` (backend/app.py:50). */
  function DropMissing(rows: seq<Row>): seq<Row> {
    Filter(rows, (r: Row) => r.phrase.Some?)
  }

  /** The mask `~str.contains(pattern, na=False)` (backend/app.py:52-53): a row
      without a phrase is not a match and so is kept. */
  predicate Survives(r: Row, p: Pattern) {
    r.phrase.None? || !Matches(r.phrase.value, p)
  }

  function RemoveMatching(rows: seq<Row>, p: Pattern): seq<Row> {
    Filter(rows, (r: Row) => Survives(r, p))
  }

  /** The phrases that occur in `rows`. */
  function Phrases(rows: seq<Row>): set<Option<string>> {
    set r | r in rows :: r.phrase
  }

  /** The first row of `rows` with phrase `ph`. */
  function FirstWith(rows: seq<Row>, ph: Option<string>): (r: Row)
    requires ph in Phrases(rows)
    ensures r in rows && r.phrase == ph
  {
    if rows[0].phrase == ph then rows[0]
    else
      assert ph in Phrases(rows[1..]) by {
        var x :| x in rows && x.phrase == ph;
        assert x in rows[1..];
      }
      FirstWith(rows[1..], ph)
  }

  /** `FirstWith` is the first occurrence: every earlier row has another phrase. */
  lemma {:induction false} FirstWithIsFirst(rows: seq<Row>, ph: Option<string>)
    requires ph in Phrases(rows)
    ensures exists k :: 0 <= k < |rows| && rows[k] == FirstWith(rows, ph)
              && forall j :: 0 <= j < k ==> rows[j].phrase != ph
    decreases |rows|
  {
    if rows[0].phrase != ph {
      assert ph in Phrases(rows[1..]) by {
        var x :| x in rows && x.phrase == ph;
        assert x in rows[1..];
      }
      FirstWithIsFirst(rows[1..], ph);
      var k :| 0 <= k < |rows[1..]| && rows[1..][k] == FirstWith(rows[1..], ph)
                && forall j :: 0 <= j < k ==> rows[1..][j].phrase != ph;
      assert rows[k + 1] == FirstWith(rows, ph);
      assert forall j :: 1 <= j < k + 1 ==> rows[j] == rows[1..][j - 1];
    } else {
      assert rows[0] == FirstWith(rows, ph);
    }
  }

  /** The position of the first row of `rows` with phrase `ph`. */
  function FirstIndex(rows: seq<Row>, ph: Option<string>): (k: nat)
    requires ph in Phrases(rows)
    ensures k < |rows| && rows[k].phrase == ph
    ensures forall j :: 0 <= j < k ==> rows[j].phrase != ph
  {
    if rows[0].phrase == ph then 0
    else
      assert ph in Phrases(rows[1..]) by {
        var x :| x in rows && x.phrase == ph;
        assert x in rows[1..];
      }
      var k := FirstIndex(rows[1..], ph);
      assert forall j :: 1 <= j < k + 1 ==> rows[j] == rows[1..][j - 1];
      k + 1
  }

  /** Past a head with another phrase, the first position of a phrase is one
      more than in the tail. */
  lemma FirstIndexTail(rows: seq<Row>, ph: Option<string>)
    requires rows != [] && rows[0].phrase != ph && ph in Phrases(rows[1..])
    ensures ph in Phrases(rows) && FirstIndex(rows, ph) == FirstIndex(rows[1..], ph) + 1
  {
    var x :| x in rows[1..] && x.phrase == ph;
    assert x in rows;
  }

  /** No two rows share a phrase. */
  predicate DistinctPhrases(rows: seq<Row>) {
    forall i, j :: 0 <= i < j < |rows| ==> rows[i].phrase != rows[j].phrase
  }

  /** `drop_duplicates(subset='Keyword Phrase')` keeping the first occurrence,
      with the phrases in `seen` already taken. */
  function DedupFrom(rows: seq<Row>, seen: set<Option<string>>): (r: seq<Row>)
    ensures DistinctPhrases(r)
    ensures Phrases(r) == Phrases(rows) - seen
    ensures forall k :: 0 <= k < |r| ==> r[k] in rows && r[k].phrase !in seen
    ensures forall k :: 0 <= k < |r| ==> r[k] == FirstWith(rows, r[k].phrase)
  {
    if rows == [] then []
    else if rows[0].phrase in seen then
      var r := DedupFrom(rows[1..], seen);
      DedupSkipStep(rows, seen, r);
      r
    else
      var rest := DedupFrom(rows[1..], seen + {rows[0].phrase});
      DedupKeepStep(rows, seen, rest);
      [rows[0]] + rest
  }

  /** `r` is the deduplication of `rows` with the phrases of `seen` taken. */
  predicate IsDedupOf(r: seq<Row>, rows: seq<Row>, seen: set<Option<string>>) {
    && DistinctPhrases(r)
    && Phrases(r) == Phrases(rows) - seen
    && (forall k :: 0 <= k < |r| ==> r[k] in rows && r[k].phrase !in seen)
    && (forall k :: 0 <= k < |r| ==> r[k] == FirstWith(rows, r[k].phrase))
  }

  /** A head whose phrase is taken is dropped. */
  lemma DedupSkipStep(rows: seq<Row>, seen: set<Option<string>>, r: seq<Row>)
    requires rows != [] && rows[0].phrase in seen
    requires IsDedupOf(r, rows[1..], seen)
    ensures IsDedupOf(r, rows, seen)
  {
    assert rows == [rows[0]] + rows[1..];
    assert Phrases(rows) == {rows[0].phrase} + Phrases(rows[1..]);
    forall k | 0 <= k < |r| ensures r[k] in rows && r[k] == FirstWith(rows, r[k].phrase) {
      assert r[k] in rows[1..];
      FirstWithTail(rows, r[k].phrase);
    }
  }

  /** A head whose phrase is new is kept in front of the rest. */
  lemma DedupKeepStep(rows: seq<Row>, seen: set<Option<string>>, rest: seq<Row>)
    requires rows != [] && rows[0].phrase !in seen
    requires IsDedupOf(rest, rows[1..], seen + {rows[0].phrase})
    ensures IsDedupOf([rows[0]] + rest, rows, seen)
  {
    var r := [rows[0]] + rest;
    assert rows == [rows[0]] + rows[1..];
    assert Phrases(rows) == {rows[0].phrase} + Phrases(rows[1..]);
    assert Phrases(r) == {rows[0].phrase} + Phrases(rest);
    assert forall k :: 1 <= k < |r| ==> r[k] == rest[k - 1];
    forall k | 0 <= k < |r| ensures r[k] in rows && r[k] == FirstWith(rows, r[k].phrase) {
      if k > 0 {
        assert rest[k - 1] in rows[1..];
        FirstWithTail(rows, rest[k - 1].phrase);
      }
    }
  }

  /** Past a head with another phrase, the first row with a phrase is found in the tail. */
  lemma FirstWithTail(rows: seq<Row>, ph: Option<string>)
    requires rows != [] && rows[0].phrase != ph && ph in Phrases(rows[1..])
    ensures ph in Phrases(rows) && FirstWith(rows, ph) == FirstWith(rows[1..], ph)
  {
    var x :| x in rows[1..] && x.phrase == ph;
    assert x in rows;
  }

  /** The deduplication of backend/app.py:55. */
  function Dedup(rows: seq<Row>): (r: seq<Row>)
    ensures DistinctPhrases(r)
    ensures Phrases(r) == Phrases(rows)
    ensures forall k :: 0 <= k < |r| ==> r[k] in rows
    ensures forall k :: 0 <= k < |r| ==> r[k] == FirstWith(rows, r[k].phrase)
    ensures InFirstOccurrenceOrder(r, rows)
  {
    DedupFromInOrder(rows, {});
    DedupFrom(rows, {})
  }

  /** The rows of `r` come in the order in which their phrases first occur in
      `rows`. */
  predicate InFirstOccurrenceOrder(r: seq<Row>, rows: seq<Row>) {
    forall i, j :: 0 <= i < j < |r| ==>
      && r[i].phrase in Phrases(rows) && r[j].phrase in Phrases(rows)
      && FirstIndex(rows, r[i].phrase) < FirstIndex(rows, r[j].phrase)
  }

  /** Deduplication keeps the rows in the order of their phrases' first
      occurrence, so an exact repeat of an earlier row is the one dropped. */
  lemma {:induction false} DedupFromInOrder(rows: seq<Row>, seen: set<Option<string>>)
    ensures InFirstOccurrenceOrder(DedupFrom(rows, seen), rows)
    decreases |rows|
  {
    if rows != [] {
      var r := DedupFrom(rows, seen);
      if rows[0].phrase in seen {
        DedupFromInOrder(rows[1..], seen);
        forall k | 0 <= k < |r|
          ensures r[k].phrase in Phrases(rows[1..]) && FirstIndex(rows, r[k].phrase) == FirstIndex(rows[1..], r[k].phrase) + 1
        {
          assert r[k] in rows[1..];
          FirstIndexTail(rows, r[k].phrase);
        }
      } else {
        var rest := DedupFrom(rows[1..], seen + {rows[0].phrase});
        DedupFromInOrder(rows[1..], seen + {rows[0].phrase});
        assert r == [rows[0]] + rest;
        assert FirstIndex(rows, rows[0].phrase) == 0;
        forall k | 0 <= k < |rest|
          ensures rest[k].phrase in Phrases(rows[1..]) && FirstIndex(rows, rest[k].phrase) == FirstIndex(rows[1..], rest[k].phrase) + 1
        {
          assert rest[k] in rows[1..];
          FirstIndexTail(rows, rest[k].phrase);
        }
        assert forall k :: 1 <= k < |r| ==> r[k] == rest[k - 1];
      }
    }
  }

  /** Deduplication only deletes rows; the kept ones stay in input order. */
  lemma {:induction false} DedupFromIsSubseq(rows: seq<Row>, seen: set<Option<string>>)
    ensures IsSubseq(DedupFrom(rows, seen), rows)
    decreases |rows|
  {
    if rows != [] {
      if rows[0].phrase in seen {
        DedupFromIsSubseq(rows[1..], seen);
        SubseqSkip(DedupFrom(rows[1..], seen), rows);
      } else {
        DedupFromIsSubseq(rows[1..], seen + {rows[0].phrase});
        var r := DedupFrom(rows, seen);
        assert r[1..] == DedupFrom(rows[1..], seen + {rows[0].phrase});
      }
    }
  }

  /** The whole request: its response is an error or the rows of the spreadsheet. */
  function Upload(files: seq<UploadedFile>, p: Pattern): (r: Result<seq<Row>, UploadError>)
    ensures r.Ok? ==> forall k :: 0 <= k < |r.value| ==>
              r.value[k].phrase.Some? && !Matches(r.value[k].phrase.value, p)
    ensures r.Ok? ==> DistinctPhrases(r.value)
  {
    if files == [] then Err(NoFilesProvided)
    else
      match ReadTables(files)
      case Err(e) => Err(e)
      case Ok(tables) =>
        if !HasPhraseColumn(tables) then Err(MissingPhraseColumn)
        else
          CleanRowsSurvive(Concat(tables), p);
          Ok(Dedup(RemoveMatching(DropMissing(Concat(tables)), p)))
  }

  /** The row stages after concatenation: drop missing phrases, drop matches,
      drop repeated phrases (backend/app.py:50-55). */
  function Clean(rows: seq<Row>, p: Pattern): seq<Row> {
    Dedup(RemoveMatching(DropMissing(rows), p))
  }

  /** The combined frame of a request whose files were all readable. */
  function Combined(files: seq<UploadedFile>): seq<Row>
    requires ReadTables(files).Ok?
  {
    Concat(ReadTables(files).value)
  }

  /** The error responses: no files, the first unreadable file, or no
      `Keyword Phrase` column in any file; in each case no spreadsheet. */
  lemma UploadErrors(files: seq<UploadedFile>, p: Pattern)
    ensures files == [] ==> Upload(files, p) == Err(NoFilesProvided)
    ensures Upload(files, p).Err? ==>
              (Upload(files, p).error.Status() == 500 <==> exists i :: 0 <= i < |files| && files[i].csv.Unreadable?)
    ensures Upload(files, p).Err? ==> Upload(files, p).error.Status() in {400, 500}
    ensures Upload(files, p).Err? <==>
              || files == []
              || (exists i :: 0 <= i < |files| && files[i].csv.Unreadable?)
              || (forall i :: 0 <= i < |files| ==> !files[i].csv.hasPhraseColumn)
    ensures Upload(files, p) == Err(MissingPhraseColumn) <==>
              && files != []
              && (forall i :: 0 <= i < |files| ==> files[i].csv.Parsed? && !files[i].csv.hasPhraseColumn)
  {
    if files != [] && ReadTables(files).Ok? {
      var tables := ReadTables(files).value;
      if HasPhraseColumn(tables) {
        var i :| 0 <= i < |tables| && tables[i].hasPhraseColumn;
        assert files[i].csv.hasPhraseColumn;
      }
      if exists i :: 0 <= i < |files| && files[i].csv.hasPhraseColumn {
        var i :| 0 <= i < |files| && files[i].csv.hasPhraseColumn;
        assert tables[i].hasPhraseColumn;
      }
    }
  }

  /** A successful upload's spreadsheet is the cleaned combined frame. */
  lemma UploadIsCleanCombined(files: seq<UploadedFile>, p: Pattern)
    requires Upload(files, p).Ok?
    ensures ReadTables(files).Ok?
    ensures Upload(files, p).value == Clean(Combined(files), p)
  {
  }

  /** The spreadsheet keeps rows of the combined frame in their order: in
      the order of their phrases' first occurrence in the combined frame. */
  lemma CleanIsSubseq(rows: seq<Row>, p: Pattern)
    ensures IsSubseq(Clean(rows, p), rows)
    ensures InFirstOccurrenceOrder(Clean(rows, p), rows)
  {
    CleanInOrder(rows, p);
    var present := DropMissing(rows);
    var kept := RemoveMatching(present, p);
    FilterMembers(rows, (r: Row) => r.phrase.Some?);
    FilterMembers(present, (r: Row) => Survives(r, p));
    FilterIsSubseq(rows, (r: Row) => r.phrase.Some?);
    FilterIsSubseq(present, (r: Row) => Survives(r, p));
    DedupFromIsSubseq(kept, {});
    SubseqTrans(kept, present, rows);
    SubseqTrans(Clean(rows, p), kept, rows);
  }

  /** Filtering only by phrase keeps the order of the phrases' first occurrences. */
  lemma CleanInOrder(rows: seq<Row>, p: Pattern)
    ensures InFirstOccurrenceOrder(Clean(rows, p), rows)
  {
    var present := DropMissing(rows);
    var kept := RemoveMatching(present, p);
    var out := Clean(rows, p);
    FilterMembers(rows, (r: Row) => r.phrase.Some?);
    FilterMembers(present, (r: Row) => Survives(r, p));
    forall i, j | 0 <= i < j < |out|
      ensures && out[i].phrase in Phrases(rows) && out[j].phrase in Phrases(rows)
              && FirstIndex(rows, out[i].phrase) < FirstIndex(rows, out[j].phrase)
    {
      var a, b := out[i].phrase, out[j].phrase;
      assert out[i] in kept && out[j] in kept;
      assert a in Phrases(kept) && b in Phrases(kept);
      assert FirstIndex(kept, a) < FirstIndex(kept, b);
      assert out[i] in present && out[j] in present;
      assert a in Phrases(present) && b in Phrases(present);
      FilterFirstIndexOrder(present, (r: Row) => Survives(r, p), a, b);
      FilterFirstIndexOrder(rows, (r: Row) => r.phrase.Some?, a, b);
    }
    assert forall i, j :: 0 <= i < j < |out| ==> FirstIndex(rows, out[i].phrase) < FirstIndex(rows, out[j].phrase);
  }

  /** A filter that keeps every row carrying phrase `a` or `b` keeps the
      order of their first occurrences. */
  lemma {:induction false} FilterFirstIndexOrder(rows: seq<Row>, keep: Row -> bool, a: Option<string>, b: Option<string>)
    requires a in Phrases(Filter(rows, keep)) && b in Phrases(Filter(rows, keep))
    requires forall x :: x in rows && (x.phrase == a || x.phrase == b) ==> keep(x)
    requires FirstIndex(Filter(rows, keep), a) < FirstIndex(Filter(rows, keep), b)
    ensures a in Phrases(rows) && b in Phrases(rows)
    ensures FirstIndex(rows, a) < FirstIndex(rows, b)
    decreases |rows|
  {
    var f := Filter(rows, keep);
    FilterMembers(rows, keep);
    var xa :| xa in f && xa.phrase == a;
    var xb :| xb in f && xb.phrase == b;
    assert xa in rows && xb in rows;
    var head := rows[0];
    var tail := Filter(rows[1..], keep);
    assert f == (if keep(head) then [head] else []) + tail;
    if head.phrase == a {
      assert keep(head);
      assert FirstIndex(rows, a) == 0;
      assert f[0] == head;
      assert FirstIndex(f, a) == 0;
      assert FirstIndex(rows, b) != 0;
    } else {
      assert head.phrase != b;
      FilterMembers(rows[1..], keep);
      assert xa in rows[1..] && xb in rows[1..];
      FirstIndexTail(rows, a);
      FirstIndexTail(rows, b);
      if keep(head) {
        assert f == [head] + tail && f[1..] == tail;
        FirstIndexTail(f, a);
        FirstIndexTail(f, b);
      } else {
        assert f == tail;
      }
      assert xa in tail && xb in tail;
      FilterFirstIndexOrder(rows[1..], keep, a, b);
    }
  }

  /** Every spreadsheet row has a phrase that the pattern does not match, and
      no phrase appears twice. */
  lemma CleanRowsSurvive(rows: seq<Row>, p: Pattern)
    ensures forall k :: 0 <= k < |Clean(rows, p)| ==>
              Clean(rows, p)[k].phrase.Some? && !Matches(Clean(rows, p)[k].phrase.value, p)
    ensures DistinctPhrases(Clean(rows, p))
  {
    var present := DropMissing(rows);
    var kept := RemoveMatching(present, p);
    FilterMembers(rows, (r: Row) => r.phrase.Some?);
    FilterMembers(present, (r: Row) => Survives(r, p));
    var out := Clean(rows, p);
    forall k | 0 <= k < |out|
      ensures out[k].phrase.Some? && !Matches(out[k].phrase.value, p)
    {
      assert out[k] in kept;
      assert out[k] in present;
    }
  }

  /** Every phrase that is present and not matched reaches the spreadsheet. */
  lemma CleanIsComplete(rows: seq<Row>, p: Pattern)
    ensures forall r :: r in rows && r.phrase.Some? && !Matches(r.phrase.value, p) ==>
              r.phrase in Phrases(Clean(rows, p))
  {
    var present := DropMissing(rows);
    var kept := RemoveMatching(present, p);
    FilterMembers(rows, (r: Row) => r.phrase.Some?);
    FilterMembers(present, (r: Row) => Survives(r, p));
    forall r | r in rows && r.phrase.Some? && !Matches(r.phrase.value, p)
      ensures r.phrase in Phrases(Clean(rows, p))
    {
      assert r in present;
      assert r in kept;
      assert r.phrase in Phrases(kept);
    }
  }

  /** Each spreadsheet row is the first row of the combined frame with its phrase. */
  lemma CleanKeepsFirst(rows: seq<Row>, p: Pattern)
    ensures forall k :: 0 <= k < |Clean(rows, p)| ==>
              Clean(rows, p)[k].phrase in Phrases(rows)
              && Clean(rows, p)[k] == FirstWith(rows, Clean(rows, p)[k].phrase)
  {
    var out := Clean(rows, p);
    forall k | 0 <= k < |out|
      ensures out[k].phrase in Phrases(rows) && out[k] == FirstWith(rows, out[k].phrase)
    {
      FirstSurvivorIsFirst(rows, p, out[k].phrase);
    }
  }

  /** Dropping and filtering decide by phrase alone, so a phrase that survives
      keeps the first row it had in the combined frame. */
  lemma FirstSurvivorIsFirst(rows: seq<Row>, p: Pattern, ph: Option<string>)
    requires ph in Phrases(RemoveMatching(DropMissing(rows), p))
    ensures ph in Phrases(rows)
    ensures FirstWith(RemoveMatching(DropMissing(rows), p), ph) == FirstWith(rows, ph)
  {
    var present := DropMissing(rows);
    var kept := RemoveMatching(present, p);
    FilterMembers(rows, (r: Row) => r.phrase.Some?);
    FilterMembers(present, (r: Row) => Survives(r, p));
    var k :| 0 <= k < |kept| && kept[k].phrase == ph;
    assert kept[k] in present;
    assert ph.Some? && Survives(kept[k], p);
    FilterFirstWith(present, (r: Row) => Survives(r, p), ph);
    FilterFirstWith(rows, (r: Row) => r.phrase.Some?, ph);
  }

  /** Filtering with a test that keeps every row carrying phrase `ph` does not
      change which row comes first with that phrase. */
  lemma {:induction false} FilterFirstWith(rows: seq<Row>, keep: Row -> bool, ph: Option<string>)
    requires ph in Phrases(Filter(rows, keep))
    requires forall x :: x in rows && x.phrase == ph ==> keep(x)
    ensures ph in Phrases(rows)
    ensures FirstWith(Filter(rows, keep), ph) == FirstWith(rows, ph)
    decreases |rows|
  {
    var f := Filter(rows, keep);
    FilterMembers(rows, keep);
    var x :| x in f && x.phrase == ph;
    assert x in rows;
    var head := rows[0];
    var tail := Filter(rows[1..], keep);
    if head.phrase == ph {
      assert keep(head);
      assert f == [head] + tail;
    } else {
      assert FirstWith(rows, ph) == FirstWith(rows[1..], ph);
      assert ph in Phrases(tail) by {
        assert f == (if keep(head) then [head] else []) + tail;
        assert x in tail;
      }
      FilterFirstWith(rows[1..], keep, ph);
      if keep(head) {
        assert f == [head] + tail;
        assert f[1..] == tail;
      } else {
        assert f == tail;
      }
    }
  }

  /** Every row of the combined frame is a row of some upload, tagged with
      that upload's file name. */
  lemma {:induction false} ConcatTags(tables: seq<Table>)
    ensures forall k :: 0 <= k < |Concat(tables)| ==> exists i :: 0 <= i < |tables| && FromTable(Concat(tables)[k], tables[i])
    ensures forall k :: 0 <= k < |Concat(tables)| ==>
              exists i :: 0 <= i < |tables| && Concat(tables)[k].sourceFile == tables[i].filename
  {
    if tables != [] {
      var first := TagAll(tables[0]);
      var rest := Concat(tables[1..]);
      var r := Concat(tables);
      ConcatTags(tables[1..]);
      ConcatUnfold(tables);
      forall k | 0 <= k < |r|
        ensures exists i :: 0 <= i < |tables| && FromTable(r[k], tables[i]) && r[k].sourceFile == tables[i].filename
      {
        if k < |first| {
          assert r[k] == Tag(tables[0], tables[0].rows[k]);
          assert FromTable(r[k], tables[0]);
        } else {
          assert r[k] == rest[k - |first|];
          var i :| 0 <= i < |tables[1..]| && FromTable(rest[k - |first|], tables[1..][i]);
          assert tables[1..][i] == tables[i + 1];
          assert FromTable(r[k], tables[i + 1]);
        }
      }
    } else {
      assert Concat(tables) == [];
    }
  }

  /** The combined frame in index form: row `j` of upload `i` sits right after
      all rows of the earlier uploads, so uploads keep their order, rows keep
      their order inside each upload, and no row is lost. */
  lemma {:induction false} ConcatAt(tables: seq<Table>, i: int, j: int)
    requires 0 <= i < |tables| && 0 <= j < |tables[i].rows|
    ensures RowCount(tables[..i]) + j < |Concat(tables)|
    ensures Concat(tables)[RowCount(tables[..i]) + j] == Tag(tables[i], tables[i].rows[j])
    decreases i
  {
    if i == 0 {
      assert RowCount(tables[..0]) == 0 by {
        assert tables[..0] == [];
      }
      ConcatFirst(tables, j);
    } else {
      var n := RowCount(tables[1..][..i - 1]) + j;
      assert n < |Concat(tables[1..])| && Concat(tables[1..])[n] == Tag(tables[i], tables[i].rows[j]) by {
        ConcatAt(tables[1..], i - 1, j);
        assert tables[1..][i - 1] == tables[i];
      }
      assert RowCount(tables[..i]) + j == |tables[0].rows| + n by {
        RowCountPrefix(tables, i);
      }
      ConcatSkip(tables, n);
    }
  }

  /** The first upload's rows open the combined frame. */
  lemma ConcatFirst(tables: seq<Table>, j: int)
    requires tables != [] && 0 <= j < |tables[0].rows|
    ensures j < |Concat(tables)| && Concat(tables)[j] == Tag(tables[0], tables[0].rows[j])
  {
    ConcatUnfold(tables);
  }

  /** After the first upload's rows come the later uploads' combined rows. */
  lemma ConcatSkip(tables: seq<Table>, n: int)
    requires tables != [] && 0 <= n < |Concat(tables[1..])|
    ensures |tables[0].rows| + n < |Concat(tables)|
    ensures Concat(tables)[|tables[0].rows| + n] == Concat(tables[1..])[n]
  {
    ConcatUnfold(tables);
    AppendIndex(TagAll(tables[0]), Concat(tables[1..]), n);
  }

  /** Indexing past the first part of a concatenation. */
  lemma AppendIndex<T>(a: seq<T>, b: seq<T>, n: int)
    requires 0 <= n < |b|
    ensures |a| + n < |a + b| && (a + b)[|a| + n] == b[n]
  {
  }

  lemma ConcatUnfold(tables: seq<Table>)
    requires tables != []
    ensures Concat(tables) == TagAll(tables[0]) + Concat(tables[1..])
  {
  }

  lemma RowCountPrefix(tables: seq<Table>, i: int)
    requires 0 < i <= |tables|
    ensures RowCount(tables[..i]) == |tables[0].rows| + RowCount(tables[1..][..i - 1])
  {
    assert tables[..i][1..] == tables[1..][..i - 1];
  }

  function RowCount(tables: seq<Table>): nat {
    if tables == [] then 0 else |tables[0].rows| + RowCount(tables[1..])
  }

  /** Phrases that differ only in case are distinct phrases: the first row of
      each survives deduplication, whatever else the input holds. */
  lemma DedupIsCaseSensitive(rows: seq<Row>, a: Row, b: Row)
    requires a in rows && b in rows
    requires a.phrase.Some? && b.phrase.Some? && a.phrase != b.phrase
    requires FoldAll(a.phrase.value) == FoldAll(b.phrase.value)
    ensures FirstWith(rows, a.phrase) in Dedup(rows) && FirstWith(rows, b.phrase) in Dedup(rows)
  {
    SurvivesDedup(rows, a.phrase);
    SurvivesDedup(rows, b.phrase);
  }

  /** The first row with any phrase of the input is kept by deduplication. */
  lemma SurvivesDedup(rows: seq<Row>, ph: Option<string>)
    requires ph in Phrases(rows)
    ensures FirstWith(rows, ph) in Dedup(rows)
  {
    var d := Dedup(rows);
    assert ph in Phrases(d);
    var x :| x in d && x.phrase == ph;
    var k :| 0 <= k < |d| && d[k] == x;
    assert d[k] == FirstWith(rows, d[k].phrase);
  }
}
